=== FILE: README.md ===
# gryphon-strategies: order bookkeeping, trend detection and trade decisions

This project models the decision logic of three gryphon trading strategies
in Dafny: the market-hodl `Trade`, the `InvestSingle` strategy and the
dynamic market maker. All amounts are exact `real`s, and Money is an
amount with a currency. The exchange becomes an oracle: its replies, open
orders, balances and midpoints are parameters, and its order calls are
returned as a list of `Call`s. Every tick is a state-in/state-out
computation. Most are pure functions. The desk's fill reconciliation
(`Desk.Reconcile`, whose two loops sit in `Desk.CollectEaten` and
`Desk.CollectCurrent`) and `InvestSingle.Tick`, which calls it, are methods.

The modules follow the source:

- `TimeSeries` (`timeseries.dfy`): `TS` and `LocalMoneyTS`. These are a
  sample list with a parallel list of symmetric derivatives
  `2*(b-a)/(a+b)`, plus the mean of the newest derivatives, `last` and
  front truncation.
- `Orders` (`orders.dfy`): `Order` and its partial fill.
- `Desk` (`desk.dfy`): the insertion-ordered ledger.
  - Placement with a minimum-size gate and a venue-failure path.
  - The double-entry "ephemeral position".
  - The "newest (un)filled order is BID/ASK" queries.
  - The dry-run fill simulator. A set `fills` of ids replaces the coin flip.
- `Tracker` (`tracker.dfy`): `PositionTracker`. It covers the reference
  price `-quote/stake`, the profit and loss exit prices, the lifecycle
  predicates and the whole-stake exit.
- `Observer` (`observer.dfy`): `MarketObserver.tick`. Signed derivatives
  are counted before trimming, and bull is checked first.
- `InvestSingle` (`invest.dfy`): the decision part of `InvestSingle.tick`.
  It enters at market on a bull signal when the ledger allows it, then exits
  at market or limit against the profit target.
- `HodlTrade` (`hodl.dfy`): `Trade` and the exits it inherits from
  `Position`. It enters, forgets ids the venue no longer lists, places a
  limit exit at the profit target and sells at market after the deadline.
  The clock is a parameter.
- `DynamicMM` (`dynamic_mm.dfy`): the warm-up phases of
  `DynamicMarketMaking.tick`. It also covers the safety multiplication, the
  spread update and the balance-based placeability.
- `Wrappers`, `Money` and `Venue` hold the shared `Option`/`Result`, money
  and exchange-call types.

Source crashes and assertion failures are not preconditions. They are error
values:

- A `None` sample, a non-Money sample or a foreign currency.
- A zero denominator in a derivative. The Decimal division raises.
- An ASK whose stake currency is not yet in the position. This is the
  `KeyError` at invest_single.py line 229.
- A zero stake balance in the exit price.
- A zero previous midpoint in the volatility.
- A missing balance entry.
- `fill()` called without a volume in live mode.

## Model

| member | source | states |
|---|---|---|
| TimeSeries.Append | gryphon-strategies/market_hodl.py:28-37 | A `None` sample is refused. The first sample adds no derivative. Every later sample adds exactly one derivative `d` with `d*(prev+new) == 2*(new-prev)`, and the old derivatives are unchanged. A zero `prev+new` is refused, as the Decimal division raises. |
| TimeSeries.AppendKeepsValid | gryphon-strategies/market_hodl.py:32-36 | Appending keeps `len(derivative) == len(series)-1` for a non-empty series. |
| TimeSeries.AppendAll | gryphon-strategies/market_hodl.py:28-37 | Appending nothing changes nothing. Appending numbers sample by sample can only be refused for a zero-sum pair, never for a missing sample. |
| TimeSeries.AppendAllKeepsValid | gryphon-strategies/market_hodl.py:28-37 | Appending a list sample by sample gives the old samples followed by the list, and the length relation still holds. |
| TimeSeries.DerivativeCount | gryphon-strategies/market_hodl.py:32-36 | N samples appended to an empty series give N samples and `max(0, N-1)` derivatives. |
| TimeSeries.DerivWindow | gryphon-strategies/market_hodl.py:46 | The slice `[-last:]`: the newest `last` derivatives. When `last` is 0 or at least the length, it is the whole list. |
| TimeSeries.Deriv | gryphon-strategies/market_hodl.py:39-48 | Unavailable exactly when there are no derivatives. Otherwise the value times the window size equals the window's sum, so it is the arithmetic mean. |
| TimeSeries.DerivWithinWindow | gryphon-strategies/market_hodl.py:39-48 | The mean lies between any lower and upper bound of the derivatives it averages. |
| TimeSeries.DerivOneAfterAppend | gryphon-strategies/market_hodl.py:32-48 | Right after an append, `deriv(1)` is the derivative of the newest sample against the previous one. |
| TimeSeries.Last | gryphon-strategies/market_hodl.py:50-51 | Unavailable exactly on an empty series. Otherwise it is the newest sample. |
| TimeSeries.LastOfAppend | gryphon-strategies/market_hodl.py:28-51 | After appending `v`, the latest sample is `v`. |
| TimeSeries.DropFirst | gryphon-strategies/market_hodl.py:53-55 | Both lists lose their oldest `n` entries (all of them if shorter). The newest entries are unchanged. For `n <= len(derivative)` the length relation is kept. |
| TimeSeries.AppendMoney | gryphon-strategies/market_hodl.py:65-74 | Anything but Money is refused, and so is Money of another currency. Otherwise the amount is appended to the underlying series and the currency is kept. |
| Orders.Fill | gryphon-strategies/invest_single.py:108-119 | Only the filled volume changes, and it never decreases. For a non-negative volume it never exceeds the order volume. The order becomes filled exactly when the volume covers the rest. The returned number is between 0 and the volume, and equals the volume once filled. |
| Orders.FillWholeVolumeCompletes | gryphon-strategies/invest_single.py:108-119 | `fill(o.volume)` always makes the order filled. |
| Orders.NewOrderIsOpen | gryphon-strategies/invest_single.py:101-106 | A new order with positive volume is well formed (filled volume in the volume's currency, between 0 and the volume) and not filled. |
| Desk.Store | gryphon-strategies/invest_single.py:187 | Ordered-dict assignment. An existing id keeps its slot and takes the new order. A new id goes last. Ids stay distinct and the id set grows by exactly the stored id. |
| Desk.Place | gryphon-strategies/invest_single.py:160-207 | At or below the minimum size: no call, ledger unchanged. A venue-reported failure, or no reply in live mode, leaves the ledger unchanged. Otherwise one order call is made, and exactly one unfilled order with the requested kind, mode, price and volume is stored under the venue id or the fresh id. The ledger invariant is kept. |
| Desk.Apply | gryphon-strategies/invest_single.py:218-234 | A BID never fails. An ASK fails exactly when its stake currency is neither present nor its quote currency. Every currency moves by that order's double-entry contribution. The keys gained are the quote currency, plus the stake currency for a filled BID. |
| Desk.EphemeralPosition | gryphon-strategies/invest_single.py:214-237 | An empty ledger gives the empty position. A failure names the id of an ASK in the ledger. |
| Desk.EphemeralPositionKeys | gryphon-strategies/invest_single.py:214-237 | The position holds exactly the currencies its orders touch. |
| Desk.EphemeralPositionDefinedIff | gryphon-strategies/invest_single.py:227-229 | The position is defined exactly when each ASK finds its stake currency set up by an earlier order. |
| Desk.EphemeralPositionIsNet | gryphon-strategies/invest_single.py:214-237 | Every currency's balance is the sum over all orders of their contributions. A BID subtracts `volume*price` from the quote currency and adds the filled volume to the stake currency once filled. An ASK subtracts its volume from the stake currency and adds `filled*price` to the quote currency once filled. |
| Desk.OrderEntries | gryphon-strategies/invest_single.py:219-233 | For distinct stake and quote currencies, the exact BID and ASK entries a single order makes. |
| Desk.EmptyPositionIffNoOrders | gryphon-strategies/invest_single.py:214-237 | The position is empty (falsy) exactly when the ledger is empty. |
| Desk.SingleFilledBid | gryphon-strategies/invest_single.py:219-225 | One filled BID of V at P gives exactly `{stake: V, quote: -V*P}`. |
| Desk.LastIndexWith | gryphon-strategies/invest_single.py:245-256 | Finds the newest order with the given fill state, or reports that there is none. |
| Desk.LastOrderIs | gryphon-strategies/invest_single.py:240-256 | True exactly when some order has the fill state and mode and no newer order has that fill state. False on an empty ledger. |
| Desk.Simulated | gryphon-strategies/invest_single.py:262-271 | Filled orders and orders not drawn are unchanged. A drawn unfilled order becomes completely filled. |
| Desk.CollectEaten | gryphon-strategies/invest_single.py:262-269 | The result is the input `eaten` plus exactly the unfilled orders whose fill came up, each in its filled state. Every entry of the input that is not such an order is kept as it was (`EatenReport`). |
| Desk.CollectCurrent | gryphon-strategies/invest_single.py:262-271 | The result is the input `current` plus exactly the unfilled orders whose fill did not come up, unchanged. Every entry of the input that is not such an order is kept as it was (`CurrentReport`). |
| Desk.Reconcile | gryphon-strategies/invest_single.py:258-279 | The new ledger is `ReconciledDesk`. In a dry run, `eaten` and `current` are the input maps extended exactly by the orders filled and left waiting this round, and every other entry is kept. Live mode leaves the ledger and both maps alone, and succeeds exactly when nothing was eaten. |
| Desk.ReconciledDesk | gryphon-strategies/invest_single.py:258-279 | Live mode keeps the ledger. A dry run keeps every order in place and fills exactly the unfilled ones whose fill came up. The ledger invariant and the settings are kept. |
| Desk.EatenReportIsUnique | gryphon-strategies/invest_single.py:262-269 | `EatenReport` fixes the reported map: two maps that both satisfy it are equal. |
| Desk.CurrentReportIsUnique | gryphon-strategies/invest_single.py:262-271 | `CurrentReport` fixes the reported map: two maps that both satisfy it are equal. |
| Tracker.ScaledReference | gryphon-strategies/invest_single.py:327-349 | Unavailable exactly when a currency is missing. Fails exactly on a zero stake. Otherwise `price*stake == -quote*factor`. |
| Tracker.ExitProfitPrice | gryphon-strategies/invest_single.py:339-349 | `(-quote/stake)*(1+profit)`, with the same unavailable and zero-stake cases. |
| Tracker.ExitLossPrice | gryphon-strategies/invest_single.py:327-337 | `(-quote/stake)*(1-loss)`, with the same unavailable and zero-stake cases. |
| Tracker.ExitPricesAfterSingleBid | gryphon-strategies/invest_single.py:327-349 | After one filled BID of V at P the reference price is exactly P, so the exits are `P*(1+profit)` and `P*(1-loss)`. |
| Tracker.ProfitNotBelowLoss | gryphon-strategies/invest_single.py:327-349 | With a non-negative reference price and percentages, profit target >= loss limit. |
| Tracker.Entering | gryphon-strategies/invest_single.py:357-359 | Some unfilled BID has no unfilled order after it. |
| Tracker.Exiting | gryphon-strategies/invest_single.py:353-355 | Some unfilled ASK has no unfilled order after it. |
| Tracker.Entered | gryphon-strategies/invest_single.py:361-363 | Some filled BID has no filled order after it. |
| Tracker.Exited | gryphon-strategies/invest_single.py:365-367 | Some filled ASK has no filled order after it. |
| Tracker.LifecycleExclusive | gryphon-strategies/invest_single.py:352-366 | Never entered and exited at once, and never entering and exiting at once. An empty ledger is none of the four. |
| Tracker.LifecycleOfOneBid | gryphon-strategies/invest_single.py:352-366 | A single BID means entering while unfilled and entered once filled, and never exiting or exited. |
| Tracker.Exit | gryphon-strategies/invest_single.py:313-325 | Offers the whole stake balance at the given price exactly when it is present and non-zero. It fails exactly when the position does. |
| Tracker.FilledExitClearsStake | gryphon-strategies/invest_single.py:313-325 | The exit ASK is appended to the ledger and sells the whole stake balance. Once it is filled, the position (invest_single.py:214-237) holds a stake balance of exactly zero. |
| Observer.CountPositive | gryphon-strategies/invest_single.py:500-504 | `bullcount` never exceeds the number of derivatives (its exact value is stated by the cardinality lemma below). |
| Observer.CountNegative | gryphon-strategies/invest_single.py:500-504 | `bearcount` never exceeds the number of derivatives (its exact value is stated by the cardinality lemma below). |
| Observer.CountPositiveIsCardinality | gryphon-strategies/invest_single.py:500-504 | `bullcount` is the number of strictly positive derivatives. |
| Observer.CountNegativeIsCardinality | gryphon-strategies/invest_single.py:500-504 | `bearcount` is the number of strictly negative derivatives. Zeros count for neither. |
| Observer.Classify | gryphon-strategies/invest_single.py:511-525 | Bull exactly when the bull threshold is met. Bear exactly when only the bear threshold is met. Undecided otherwise. |
| Observer.Grow | gryphon-strategies/invest_single.py:495-498 | Fails when the money series refuses the midpoint. Otherwise, when there is no earlier midpoint or it equals the new one, the result is `Quiet`. When the midpoint moved, the derivative `2*(x-prev)/(x+prev)` exists, and the step succeeds exactly when the window accepts it, giving `Grew`. |
| Observer.TrimAsWritten | gryphon-strategies/invest_single.py:505-509 | Fails exactly when the window is longer than the longest period and the midpoints are not one ahead of it. Within the period both series are kept as they are. Past it, both lose the same number of oldest entries: the window keeps its newest `max(periods)` derivatives and the midpoints their newest `max(periods)+1` samples. Nothing else in the observer changes. |
| Observer.TickAsWritten | gryphon-strategies/invest_single.py:488-509 | The source's tick can fail its assertion only when the midpoints were already out of step with the window. |
| Observer.TrimBoth | gryphon-strategies/invest_single.py:505-509 | The window keeps its newest `max(periods)` entries, and the midpoints keep one more than the window. |
| Observer.Tick | gryphon-strategies/invest_single.py:488-525 | Succeeds exactly when `Grow` does, and then signals exactly when the midpoint moved. Never breaks the length assertion, and keeps the observer invariant. The newest midpoint is the input. No signal means the window is unchanged. A signal is classified on the window before trimming, so it spans up to one more than the longest period, and the trimmed window is that window's newest part. |
| Observer.AsWrittenAgreesInLockstep | gryphon-strategies/invest_single.py:495-509 | While midpoints and window are in step, the source's tick and the corrected tick give the same result. |
| Observer.LockstepFailsAfterZeroDerivative | gryphon-strategies/invest_single.py:496-509 | Midpoints 100, 100, 110, 120 with periods 1: the source's fourth tick fails the lockstep assertion. |
| Observer.LockstepTrimKeepsRelation | gryphon-strategies/invest_single.py:505-516 | On the same data the corrected tick reports a bull trend and keeps two midpoints for a one-entry window. |
| InvestSingle.ChooseExit | gryphon-strategies/invest_single.py:632-650 | An exit is considered only with a non-empty position that is entered and not exiting. A market exit at the midpoint happens exactly when the midpoint is above the profit price. Otherwise a limit exit is placed at that price. An unavailable or zero price gives no exit. A non-zero price always gives a market or limit exit. |
| InvestSingle.ExitStep | gryphon-strategies/invest_single.py:632-650 | The chosen exit offers the whole stake balance through the desk, exactly when that balance is non-zero. |
| InvestSingle.Tick | gryphon-strategies/invest_single.py:592-650 | Fails with the desk error exactly in live mode with eaten ids. Otherwise it reports `ReconciledDesk` and, in a dry run, the eaten and current maps as `Desk.Reconcile` states them, and its outcome is exactly `Decide`'s on that ledger. An aborted live placement only happens with an unanswered entry or exit. On success: a market BID of the base volume at the midpoint exactly on a bull signal with an empty position, or exited and not entering. The exit step then runs on the resulting ledger, and both invariants are kept. |
| InvestSingle.Decide | gryphon-strategies/invest_single.py:609-650 | A position failure aborts first, then an observer failure. Otherwise the outcome is `Act`'s on the observer's result. It never reports a desk failure. On success the observer moved as `Observer.Tick` says, and the ledger is the one after the entry and the exit placement. |
| InvestSingle.Act | gryphon-strategies/invest_single.py:621-650 | An unanswered live entry aborts the tick, as the assertion at invest_single.py:175 does. Otherwise an exit-step failure aborts it, then an unanswered live exit. In every other case it succeeds with that entry and that exit plan. An abort for an unanswered order only happens in live mode, with no reply to the entry or the exit. |
| InvestSingle.OnBullTrend | gryphon-strategies/invest_single.py:621-625 | An entry is attempted exactly on a bull signal with an empty position, or exited and not entering. The ledger invariant is kept. |
| InvestSingle.ExitAfterFilledEntry | gryphon-strategies/invest_single.py:632-648 | After a single filled entry at P, the exit is a market exit at the midpoint exactly when the midpoint is above `P*(1+profit)`. Otherwise it is a limit exit at that price. |
| InvestSingle.NoReentryWhileEntered | gryphon-strategies/invest_single.py:621-625 | While entered with a non-empty position, a bull signal never adds a second entry. |
| HodlTrade.NewTrade | gryphon-strategies/market_hodl.py:133-146 | A new trade has no volume, prices or order ids. |
| HodlTrade.Enter | gryphon-strategies/market_hodl.py:148-182 | At or below the minimum: no order and nothing recorded. Otherwise one BID. The venue's id is stored even on failure. A failure returns nothing and records nothing else. A dry run or success records volume and entry price and returns the entry id. |
| HodlTrade.Exit | gryphon-strategies/market_hodl.py:95-128 | Without an entered volume, or at or below the minimum, nothing happens. Otherwise it records the exit price, then places one ASK of the entered volume. A failure returns nothing. |
| HodlTrade.ExitProfitPrice | gryphon-strategies/market_hodl.py:188-190 | Exceeds the entry price by `entry*profit`, in the entry's currency. Unavailable before entry. |
| HodlTrade.ExitLossPrice | gryphon-strategies/market_hodl.py:184-186 | Falls short of the entry price by `entry*loss`, in the entry's currency. Unavailable before entry. |
| HodlTrade.ProfitNotBelowLoss | gryphon-strategies/market_hodl.py:184-190 | With a non-negative entry price and percentages, profit target >= loss limit. |
| HodlTrade.Reconcile | gryphon-strategies/market_hodl.py:205-219 | A set id that the venue no longer lists is forgotten. Any other id, including an unset or empty one, is kept. |
| HodlTrade.ReconcileKeepsListed | gryphon-strategies/market_hodl.py:205-219 | A listed id is kept and an unlisted one is cleared. Reconciling twice against the same list changes nothing more. |
| HodlTrade.Tick | gryphon-strategies/market_hodl.py:185-236 | Ids are reconciled first, and only `exitId` and `exitedPrice` may change besides them. Percentages and entry data are never touched. With no resting exit and the volume in the balance, it places a limit exit at the profit price. Otherwise, past the deadline, it cancels a resting exit and then sells the entered volume, if any, at market at the midpoint. Otherwise nothing is called. After a placed exit, `exitId` is the venue's id, or the reconciled id when there is no reply. With no exit placed, the exit price is kept. It fails with `NoEnteredPrice` exactly when there is no entry price, because the opening log line formats the loss price. Otherwise it fails exactly when no exit rests and there is no entered volume, because the volume's currency is read. |
| HodlTrade.EnterThenLimitExit | gryphon-strategies/market_hodl.py:148-224 | After a successful entry of V at P, a funded tick places exactly one limit ASK of V at `P*(1+profit)`. |
| HodlTrade.DeadlineWithoutVolumeOnlyCancels | gryphon-strategies/market_hodl.py:113-128 | Past the deadline with an exit listed and an entry price but no entered volume, the only call is the cancellation of that exit, and no exit price is recorded. |
| HodlTrade.DeadlineCancelsThenSells | gryphon-strategies/market_hodl.py:226-233 | For an entered trade past the deadline with an exit still listed, the calls are exactly: cancel that exit, then a market ASK of the volume at the midpoint. |
| DynamicMM.Configure | gryphon-strategies/dynamic_market_making.py:30-40 | Accepted exactly when the loss coefficient exceeds the adjustment coefficient. The result starts in the first warm-up phase. |
| DynamicMM.Volatility | gryphon-strategies/dynamic_market_making.py:86-89 | The move relative to the older midpoint: `volat*last == abs(m-last)`. It is zero exactly when the midpoint did not move, and non-negative for a positive older midpoint. |
| DynamicMM.Tick | gryphon-strategies/dynamic_market_making.py:50-137 | The first tick only records the midpoint. The second records the volatility and makes no call. A running tick moves the spread by `adjust*(volat-last_volat)` after the loss multiplication. Its calls are exactly: cancel everything, then the BID at the new bid price when the quote balance exceeds `price*volume`, then the ASK when the stake balance exceeds the ask volume. A missing balance entry fails. |
| DynamicMM.PlaceableBid | gryphon-strategies/dynamic_market_making.py:122 | Fails exactly when the quote balance is missing. Otherwise the BID is placeable exactly when that balance exceeds `price*volume`. |
| DynamicMM.PlaceableAsk | gryphon-strategies/dynamic_market_making.py:123 | Fails exactly when the stake balance is missing. Otherwise the ASK is placeable exactly when that balance exceeds the ask volume. |
| DynamicMM.PhasesAdvance | gryphon-strategies/dynamic_market_making.py:59-89 | Fresh, then primed, then running, and running stays running. |
| DynamicMM.WarmUpIsQuiet | gryphon-strategies/dynamic_market_making.py:59-87 | The first two ticks after configuration make no call. A successful third tick starts by cancelling all open orders. |
| DynamicMM.SpreadFollowsVolatility | gryphon-strategies/dynamic_market_making.py:89-92 | Without a loss signal, `spread - adjust*volat` is conserved by a running tick. |

## Left out

- Sample timestamps and `datetime.now()`: no decision reads a sample's time. `Trade`'s deadline is an integer compared with a `now` parameter.
- TimeSeries.Last: `None` stands for the `IndexError` the source raises on an empty series. The source also returns the timestamp with the value.
- TimeSeries.DerivWindow: a negative `last` (a Python slice from the front) is not modelled, because every caller passes 1.
- TimeSeries.DropFirst: a count beyond the length is not rejected. It empties both lists, as Python slicing does, and the model follows that.
- The `basic_ts` module imported at invest_single.py line 471 is not part of this model. The `TS`/`LocalMoneyTS` of market_hodl.py stand in for it.
- Money comparisons compare amounts, assuming the same currency. Neither side of a comparison is ever of another currency in these paths. The minimum order size is assumed to be in the order volume's currency.
- Money and Decimal truthiness (`if md:`, `if total_volume:`, `if exit_profit_price:`) is read as "non-zero". An absent value is falsy too.
- `None` in a comparison is read as Python 2's default ordering, which puts `None` below everything. So a missing balance entry in `Trade.tick` is "not greater", and a missing order volume in `limit_exit`/`market_exit` is "not above the minimum", which places nothing. A `Money` comparison hook that raised on `None` instead is not modelled.
- Order ids: an empty id counts as absent in `Trade`. A venue reply is assumed to carry an `order_id`.
- `Trade.setup` reads `self.balance`, which nothing defines, so it always raises. It is not modelled.
- `Position.__init__` and the `Position` class itself: only the exits that `Trade` inherits are modelled.
- `MarketHodl.tick`, `ETH_arb.py` and `BTC_arb.py` are outside this model. The hodl tick instantiates an undefined class and reads framework state. The arbitrage files are thin wrappers over library calls that are not shown.
- `Desk.cancel` only raises `NotImplementedError`.
- Live-mode `Desk.tick`: `fill()` without a volume raises, so the model only says that it fails when anything was eaten.
- The exchange-reported position (invest_single.py lines 304 and 610) is only logged.
- `on_bear_trend` does nothing.
- Desk.Reconcile: `current` and `eaten` hold value copies of the ledger's orders. In the source they hold the ledger's own objects, because `gryphon()` returns the order itself (invest_single.py lines 130-131 and 142-143). Take an order reported in `current` on one dry-run tick, whose map is passed back on a later tick. If its fill comes up then, the source's `current` entry shows it filled. The model's `current` keeps the earlier unfilled copy, and its filled state appears only in the ledger and in `eaten`. Desk.CollectCurrent and Desk.CollectEaten share this reading.
- InvestSingle.Tick: the source runs the entry inside the observer's tick, through a callback after trimming. The model enters right after the observer tick. They touch disjoint state, so the outcome is the same. The strategy also uses the corrected `Observer.Tick` (see Findings). After a zero midpoint derivative the source's lockstep assertion at invest_single.py line 509 can fail, and the source's tick then raises. The model's tick succeeds instead. An entry or exit that reaches a live venue and gets no answer aborts the model's tick as the source's assertion does (`UnansweredLiveOrder`). When the tick fails after the fill step, the source keeps what it has already done. The failure can come from the position (line 609), the observer (for example a window append dividing by zero at line 498), the exit price or an unanswered placement. In a dry run the source keeps the fills simulated in place at line 268 and the entries added to the caller's maps at lines 269 and 271. It also keeps any entry already placed. The model returns only the error and discards all of these.
- Tracker.FilledExitClearsStake: stated only for an ask price quoted in a currency other than the stake, which holds for every exit price the strategy computes. With a price in the stake currency, the filled proceeds would flow back into the stake.
- `uuid`, `random.random()`, order books, `midpoint_lib`, `mm.midpoint_centered_fixed_spread`, `mm.simple_position_responsive_sizing` and balances become parameters. The order calls become returned `Call` lists.
- Configuration, logging, `print`, `gryphon()` (an identity), `init_primary_exchange` and the strategy constructors are plumbing with no decision logic. The one log statement that can fail, `str(self)` at the start of `Trade.tick`, reads `exit_loss_price` and is modelled as `HodlTrade.Tick`'s first failure.
- Float defaults and Decimal rounding contexts: amounts are exact reals.
- Observer.Grow: when the window refuses the new derivative (invest_single.py line 498), the source has already appended the midpoint at line 495 and keeps it. The model returns the error and discards that midpoint too. Observer.Tick and Observer.TickAsWritten inherit this.
- DynamicMM.Tick: when a tick raises part way, the source keeps the fields it had already updated. The model discards the whole tick. `base_volume_adjust_coef` is never used by the source.

## Findings

| source | as written | input that shows it | evidently intended | confidence | as-written member | corrected member |
|---|---|---|---|---|---|---|
| gryphon-strategies/invest_single.py:497-509 | A zero midpoint derivative is kept out of the derivative window (`if md:`), but the midpoint stays in `midpoints`. Both series are later trimmed by the same count, and the lockstep assertion `len(midpoints) == len(window)+1` fails. | Periods 1 and 1, midpoints 100, 100, 110, 120 (EUR): the fourth tick leaves 3 midpoints against 1 derivative, and the assertion fails. | Midpoints trimmed so they stay one ahead of the window, which keeps the length relation. | not executed | Observer.TickAsWritten, Observer.LockstepFailsAfterZeroDerivative | Observer.Tick |

=== FILE: desk.dfy ===
/** `Desk`: the insertion-ordered ledger of every order placed during a run,
    order placement behind the minimum-size gate, the ephemeral position
    derived from the ledger, the "most recent (un)filled order" queries, and
    the dry-run fill simulator. */
module Desk {
  import opened Wrappers
  import opened Money
  import opened Venue
  import opened Orders

  /** `orders` is `orders_passed` in insertion order. */
  datatype Desk = Desk(orders: seq<Order>, minOrderSize: Money, execute: bool)

  predicate DistinctIds(orders: seq<Order>) {
    forall i, j :: 0 <= i < j < |orders| ==> orders[i].id != orders[j].id
  }

  /** What every reachable desk satisfies. */
  predicate DeskInvariant(d: Desk) {
    && DistinctIds(d.orders)
    && (forall i :: 0 <= i < |d.orders| ==> WellFormed(d.orders[i]))
    && d.minOrderSize.amount >= 0.0
  }

  function IdSet(orders: seq<Order>): set<Id> {
    set i | 0 <= i < |orders| :: orders[i].id
  }

  /** Where `id` sits in the ledger. */
  function IndexOf(orders: seq<Order>, id: Id): (k: nat)
    requires id in IdSet(orders)
    ensures k < |orders| && orders[k].id == id
    ensures forall j :: 0 <= j < k ==> orders[j].id != id
  {
    if orders[0].id == id then 0
    else
      assert id in IdSet(orders[1..]) by {
        var i :| 0 <= i < |orders| && orders[i].id == id;
        assert orders[1..][i - 1] == orders[i];
      }
      1 + IndexOf(orders[1..], id)
  }

  /** `orders_passed[o.id] = o`: an existing id keeps its slot and gets the
      new order; a new id goes to the end. */
  function Store(orders: seq<Order>, o: Order): (r: seq<Order>)
    requires DistinctIds(orders)
    ensures DistinctIds(r)
    ensures IdSet(r) == IdSet(orders) + {o.id}
    ensures |r| == if o.id in IdSet(orders) then |orders| else |orders| + 1
    ensures o.id !in IdSet(orders) ==> r == orders + [o]
    ensures forall i :: 0 <= i < |orders| ==> r[i] == if orders[i].id == o.id then o else orders[i]
    ensures exists k :: 0 <= k < |r| && r[k] == o
  {
    if o.id in IdSet(orders) then
      var k := IndexOf(orders, o.id);
      var r := orders[k := o];
      assert IdSet(r) == IdSet(orders) by {
        forall id | id in IdSet(orders) ensures id in IdSet(r) {
          var i :| 0 <= i < |orders| && orders[i].id == id;
          assert r[i].id == id;
        }
        forall id | id in IdSet(r) ensures id in IdSet(orders) {
          var i :| 0 <= i < |r| && r[i].id == id;
          assert orders[i].id == id;
        }
      }
      r
    else
      var r := orders + [o];
      assert IdSet(r) == IdSet(orders) + {o.id} by {
        forall id | id in IdSet(r) ensures id in IdSet(orders) + {o.id} {
          var i :| 0 <= i < |r| && r[i].id == id;
          if i < |orders| { assert orders[i].id == id; }
        }
        assert r[|orders|].id == o.id;
        forall id | id in IdSet(orders) ensures id in IdSet(r) {
          var i :| 0 <= i < |orders| && orders[i].id == id;
          assert r[i].id == id;
        }
      }
      assert r[|orders|] == o;
      r
  }

  datatype PlaceError =
    | VolumeTooLow      // volume not above the venue's minimum order size
    | PlacementFailed   // the venue answered without `success`
    | LiveWithoutReply  // `assert not self.harness.execute` fails

  /** The desk after a placement attempt, the venue calls made and the outcome. */
  datatype Placement = Placement(desk: Desk, calls: seq<Call>, outcome: Result<Order, PlaceError>)

  /** `_place_order` (behind `limit_bid`, `market_bid`, `limit_ask`,
      `market_ask`): `reply` is what the venue answers, `freshId` the token
      generated locally when it answers nothing. */
  function Place(d: Desk, kind: Kind, mode: Mode, volume: Money, price: Money,
                 reply: Reply, freshId: Id): (p: Placement)
    requires DeskInvariant(d)
    ensures volume.amount <= d.minOrderSize.amount ==>
              p == Placement(d, [], Err(VolumeTooLow))
    ensures volume.amount > d.minOrderSize.amount ==>
              p.calls == [PlaceOrder(kind, mode, volume, price)]
    ensures p.outcome.Err? ==> p.desk == d
    ensures p.outcome == Err(PlacementFailed) <==>
              volume.amount > d.minOrderSize.amount && reply.Replied? && !reply.success
    ensures p.outcome == Err(LiveWithoutReply) <==>
              volume.amount > d.minOrderSize.amount && reply.NoReply? && d.execute
    ensures p.outcome.Ok? ==>
              var o := p.outcome.value;
              && o.kind == kind && o.mode == mode && o.price == price && o.volume == volume
              && o.id == (if reply.Replied? then reply.orderId else freshId)
              && !Filled(o) && WellFormed(o)
              && p.desk == d.(orders := Store(d.orders, o))
              && DeskInvariant(p.desk)
  {
    if volume.amount <= d.minOrderSize.amount then Placement(d, [], Err(VolumeTooLow))
    else
      var calls := [PlaceOrder(kind, mode, volume, price)];
      match reply
      case Replied(success, oid) =>
        if !success then Placement(d, calls, Err(PlacementFailed))
        else
          var o := NewOrder(kind, mode, oid, price, volume);
          Placement(d.(orders := Store(d.orders, o)), calls, Ok(o))
      case NoReply =>
        if d.execute then Placement(d, calls, Err(LiveWithoutReply))
        else
          var o := NewOrder(kind, mode, freshId, price, volume);
          Placement(d.(orders := Store(d.orders, o)), calls, Ok(o))
  }

  // ---------------------------------------------------------------------
  // Ephemeral position

  type Position = map<Currency, real>

  /** `calculated_position.get(c, 0)`. */
  function Get(pos: Position, c: Currency): real {
    if c in pos then pos[c] else 0.0
  }

  /** Add one order's entries to a running position. An ASK reads the stake
      balance without defaulting it (the source defaults the quote currency
      instead), so an ASK whose stake currency is not yet present fails with
      the source's `KeyError`, reported here as the order's id. */
  function Apply(pos: Position, o: Order): (r: Result<Position, Id>)
    ensures o.mode == Bid ==> r.Ok?
    ensures o.mode == Ask ==> (r.Err? <==> o.volume.currency != o.price.currency && o.volume.currency !in pos)
    ensures r.Err? ==> r.error == o.id
    ensures r.Ok? ==> r.value.Keys == pos.Keys + {o.price.currency}
                                     + (if o.mode == Bid && Filled(o) then {o.volume.currency} else {})
    ensures r.Ok? ==> forall c :: Get(r.value, c) == Get(pos, c) + Contribution(o, c)
  {
    var pc := o.price.currency;
    var vc := o.volume.currency;
    match o.mode
    case Bid =>
      var p1 := pos[pc := Get(pos, pc) - o.volume.amount * o.price.amount];
      if Filled(o) then Ok(p1[vc := Get(p1, vc) + o.volumeFilled.amount]) else Ok(p1)
    case Ask =>
      var p1 := pos[pc := Get(pos, pc)];
      if vc !in p1 then Err(o.id)
      else
        var p2 := p1[vc := p1[vc] - o.volume.amount];
        if Filled(o) then Ok(p2[pc := p2[pc] + o.volumeFilled.amount * o.price.amount]) else Ok(p2)
  }

  /** `ephemeral_position`: the ledger's orders applied oldest first. */
  function EphemeralPosition(orders: seq<Order>): (r: Result<Position, Id>)
    ensures |orders| == 0 ==> r == Ok(map[])
    ensures r.Err? ==> exists i :: 0 <= i < |orders| && orders[i].mode == Ask && orders[i].id == r.error
  {
    if |orders| == 0 then Ok(map[])
    else
      match EphemeralPosition(orders[..|orders| - 1])
      case Err(id) => Err(id)
      case Ok(pos) => Apply(pos, orders[|orders| - 1])
  }

  /** One order's signed contribution to currency `c`, as double-entry bookkeeping. */
  function Contribution(o: Order, c: Currency): real {
    match o.mode
    case Bid =>
      (if c == o.price.currency then -(o.volume.amount * o.price.amount) else 0.0)
      + (if Filled(o) && c == o.volume.currency then o.volumeFilled.amount else 0.0)
    case Ask =>
      (if c == o.volume.currency then -o.volume.amount else 0.0)
      + (if Filled(o) && c == o.price.currency then o.volumeFilled.amount * o.price.amount else 0.0)
  }

  /** The sum of all orders' contributions to `c`. */
  function Net(orders: seq<Order>, c: Currency): real {
    if |orders| == 0 then 0.0
    else Net(orders[..|orders| - 1], c) + Contribution(orders[|orders| - 1], c)
  }

  /** The currencies a position built from `orders` holds. */
  function Touched(orders: seq<Order>): set<Currency> {
    if |orders| == 0 then {}
    else
      var o := orders[|orders| - 1];
      Touched(orders[..|orders| - 1]) + {o.price.currency}
      + (if o.mode == Bid && Filled(o) then {o.volume.currency} else {})
  }

  /** The ASK at index `i` finds its stake currency already in the position. */
  predicate AskCovered(orders: seq<Order>, i: nat)
    requires i < |orders|
  {
    orders[i].mode == Ask ==>
      orders[i].volume.currency == orders[i].price.currency
      || orders[i].volume.currency in Touched(orders[..i])
  }

  /** The currencies of the ephemeral position are those its orders touch. */
  lemma {:induction false} EphemeralPositionKeys(orders: seq<Order>)
    requires EphemeralPosition(orders).Ok?
    ensures EphemeralPosition(orders).value.Keys == Touched(orders)
    decreases |orders|
  {
    if |orders| > 0 {
      EphemeralPositionKeys(orders[..|orders| - 1]);
    }
  }

  /** Whether an ASK is covered depends only on the orders before it. */
  lemma AskCoveredInPrefix(orders: seq<Order>, n: nat, i: nat)
    requires i < n <= |orders|
    ensures AskCovered(orders[..n], i) <==> AskCovered(orders, i)
  {
    assert orders[..n][..i] == orders[..i];
  }

  /** The ephemeral position is defined exactly when every ASK's stake
      currency was set up by an earlier order (or is its own quote currency). */
  lemma {:induction false} EphemeralPositionDefinedIff(orders: seq<Order>)
    ensures EphemeralPosition(orders).Ok? <==> forall i :: 0 <= i < |orders| ==> AskCovered(orders, i)
    decreases |orders|
  {
    if |orders| > 0 {
      var n := |orders| - 1;
      var pre := orders[..n];
      var o := orders[n];
      EphemeralPositionDefinedIff(pre);
      forall i | 0 <= i < n ensures AskCovered(orders, i) <==> AskCovered(pre, i) {
        AskCoveredInPrefix(orders, n, i);
      }
      match EphemeralPosition(pre)
      case Err(_) =>
      case Ok(pos) =>
        EphemeralPositionKeys(pre);
        assert EphemeralPosition(orders) == Apply(pos, o);
        assert orders[..n] == pre;
        assert AskCovered(orders, n) <==>
               (o.mode == Ask ==> o.volume.currency == o.price.currency || o.volume.currency in pos);
    }
  }

  /** The ephemeral position is the double-entry sum of every order's contribution. */
  lemma {:induction false} EphemeralPositionIsNet(orders: seq<Order>, c: Currency)
    requires EphemeralPosition(orders).Ok?
    ensures Get(EphemeralPosition(orders).value, c) == Net(orders, c)
    decreases |orders|
  {
    if |orders| > 0 {
      EphemeralPositionIsNet(orders[..|orders| - 1], c);
    }
  }

  /** The BID and ASK entries of the source, for distinct stake and quote currencies. */
  lemma OrderEntries(pos: Position, o: Order)
    requires o.price.currency != o.volume.currency
    requires Apply(pos, o).Ok?
    ensures var r := Apply(pos, o).value;
            var q := o.price.currency;
            var s := o.volume.currency;
            && (o.mode == Bid ==>
                  && Get(r, q) == Get(pos, q) - o.volume.amount * o.price.amount
                  && Get(r, s) == Get(pos, s) + (if Filled(o) then o.volumeFilled.amount else 0.0))
            && (o.mode == Ask ==>
                  && Get(r, s) == Get(pos, s) - o.volume.amount
                  && Get(r, q) == Get(pos, q) + (if Filled(o) then o.volumeFilled.amount * o.price.amount else 0.0))
  {
    var r := Apply(pos, o).value;
    assert Get(r, o.price.currency) == Get(pos, o.price.currency) + Contribution(o, o.price.currency);
    assert Get(r, o.volume.currency) == Get(pos, o.volume.currency) + Contribution(o, o.volume.currency);
  }

  /** The position is empty exactly when the ledger is (`not position` in the source). */
  lemma {:induction false} EmptyPositionIffNoOrders(orders: seq<Order>)
    requires EphemeralPosition(orders).Ok?
    ensures EphemeralPosition(orders).value == map[] <==> |orders| == 0
    decreases |orders|
  {
    if |orders| > 0 {
      var n := |orders| - 1;
      assert orders[n].price.currency in EphemeralPosition(orders).value;
    }
  }

  /** Filling one BID of `V` at `P` on an empty ledger gives exactly `V`
      stake and `-V*P` quote. */
  lemma SingleFilledBid(o: Order)
    requires o.mode == Bid && Filled(o) && o.price.currency != o.volume.currency
    ensures EphemeralPosition([o]).Ok?
    ensures EphemeralPosition([o]).value.Keys == {o.price.currency, o.volume.currency}
    ensures EphemeralPosition([o]).value[o.price.currency] == -(o.volume.amount * o.price.amount)
    ensures EphemeralPosition([o]).value[o.volume.currency] == o.volume.amount
  {
    assert [o][..0] == [];
    assert EphemeralPosition([o]) == Apply(map[], o);
    OrderEntries(map[], o);
  }

  // ---------------------------------------------------------------------
  // Most recent filled / unfilled order

  /** Index of the most recently inserted order whose fill state is `filled`. */
  function LastIndexWith(orders: seq<Order>, filled: bool): (r: Option<nat>)
    ensures r.None? <==> forall i :: 0 <= i < |orders| ==> Filled(orders[i]) != filled
    ensures r.Some? ==> && r.value < |orders|
                        && Filled(orders[r.value]) == filled
                        && forall j :: r.value < j < |orders| ==> Filled(orders[j]) != filled
  {
    if |orders| == 0 then None
    else if Filled(orders[|orders| - 1]) == filled then Some(|orders| - 1)
    else LastIndexWith(orders[..|orders| - 1], filled)
  }

  /** `last_filled_order_is(mode)` (`filled`) and `last_unfilled_order_is(mode)`
      (`!filled`): false on an empty ledger and when no order has that state
      (the source then returns `None`). */
  function LastOrderIs(orders: seq<Order>, filled: bool, mode: Mode): (r: bool)
    ensures r <==> exists i :: 0 <= i < |orders| && Filled(orders[i]) == filled && orders[i].mode == mode
                               && forall j :: i < j < |orders| ==> Filled(orders[j]) != filled
    ensures |orders| == 0 ==> !r
  {
    var last := LastIndexWith(orders, filled);
    last.Some? && orders[last.value].mode == mode
  }

  // ---------------------------------------------------------------------
  // Order-fill reconciliation

  datatype DeskError = FillWithoutVolume  // live mode calls `fill()` with no volume

  datatype Reconciled = Reconciled(desk: Desk, current: map<Id, Order>, eaten: map<Id, Order>)

  /** What the dry-run simulator makes of one order when `fills` holds the
      ids whose coin flip came up "filled". */
  function Simulated(o: Order, fills: set<Id>): (r: Order)
    requires WellFormed(o)
    ensures WellFormed(r) && r.id == o.id
    ensures Filled(o) || o.id !in fills ==> r == o
    ensures !Filled(o) && o.id in fills ==> Filled(r) && r == o.(volumeFilled := o.volume)
  {
    if !Filled(o) && o.id in fills then
      FillWholeVolumeCompletes(o);
      Fill(o, o.volume.amount).order
    else o
  }

  /** The unfilled order whose fill comes up in this round. */
  predicate Drawn(o: Order, fills: set<Id>) {
    !Filled(o) && o.id in fills
  }

  /** The unfilled order whose fill does not come up in this round. */
  predicate Waiting(o: Order, fills: set<Id>) {
    !Filled(o) && o.id !in fills
  }

  function DrawnIds(orders: seq<Order>, fills: set<Id>): set<Id> {
    set k | 0 <= k < |orders| && Drawn(orders[k], fills) :: orders[k].id
  }

  function WaitingIds(orders: seq<Order>, fills: set<Id>): set<Id> {
    set k | 0 <= k < |orders| && Waiting(orders[k], fills) :: orders[k].id
  }

  /** `after` is the `eaten` map once the dry-run loop has visited `orders`:
      the drawn ids are added with their simulated state `sim[k]`, and every
      other entry of `before` is left as it was. */
  predicate EatenReport(orders: seq<Order>, sim: seq<Order>, fills: set<Id>,
                        before: map<Id, Order>, after: map<Id, Order>)
    requires |sim| == |orders|
  {
    && after.Keys == before.Keys + DrawnIds(orders, fills)
    && (forall k :: 0 <= k < |orders| && Drawn(orders[k], fills) ==>
          orders[k].id in after && after[orders[k].id] == sim[k])
    && (forall id :: id in before && id !in DrawnIds(orders, fills) ==>
          id in after && after[id] == before[id])
  }

  /** `after` is the `current` map once the dry-run loop has visited
      `orders`: the waiting orders are added unchanged, and every other entry
      of `before` is left as it was. */
  predicate CurrentReport(orders: seq<Order>, fills: set<Id>,
                          before: map<Id, Order>, after: map<Id, Order>)
  {
    && after.Keys == before.Keys + WaitingIds(orders, fills)
    && (forall k :: 0 <= k < |orders| && Waiting(orders[k], fills) ==>
          orders[k].id in after && after[orders[k].id] == orders[k])
    && (forall id :: id in before && id !in WaitingIds(orders, fills) ==>
          id in after && after[id] == before[id])
  }

  /** The `eaten` report pins its map down: two maps satisfying it are equal. */
  lemma EatenReportIsUnique(orders: seq<Order>, sim: seq<Order>, fills: set<Id>,
                            before: map<Id, Order>, a: map<Id, Order>, b: map<Id, Order>)
    requires |sim| == |orders|
    requires EatenReport(orders, sim, fills, before, a) && EatenReport(orders, sim, fills, before, b)
    ensures a == b
  {
    forall id | id in a ensures a[id] == b[id] {
      if id in DrawnIds(orders, fills) {
        var k :| 0 <= k < |orders| && Drawn(orders[k], fills) && orders[k].id == id;
      }
    }
  }

  /** The `current` report pins its map down: two maps satisfying it are equal. */
  lemma CurrentReportIsUnique(orders: seq<Order>, fills: set<Id>,
                              before: map<Id, Order>, a: map<Id, Order>, b: map<Id, Order>)
    requires CurrentReport(orders, fills, before, a) && CurrentReport(orders, fills, before, b)
    ensures a == b
  {
    forall id | id in a ensures a[id] == b[id] {
      if id in WaitingIds(orders, fills) {
        var k :| 0 <= k < |orders| && Waiting(orders[k], fills) && orders[k].id == id;
      }
    }
  }

  /** The dry-run `eaten` loop (`eaten_orders[oid] = o`), visiting the
      ledger oldest first. */
  method CollectEaten(orders: seq<Order>, sim: seq<Order>, fills: set<Id>, eaten: map<Id, Order>)
    returns (ate: map<Id, Order>)
    requires DistinctIds(orders) && |sim| == |orders|
    ensures EatenReport(orders, sim, fills, eaten, ate)
    ensures forall k :: 0 <= k < |orders| && !Filled(orders[k]) && orders[k].id in fills ==>
              orders[k].id in ate && ate[orders[k].id] == sim[k]
    ensures forall id :: id in ate && id !in eaten ==> id in fills && id in IdSet(orders)
    ensures forall id :: id !in IdSet(orders) && id in eaten ==> id in ate && ate[id] == eaten[id]
  {
    ate := eaten;
    var i := 0;
    while i < |orders|
      invariant 0 <= i <= |orders|
      invariant forall k :: 0 <= k < i && Drawn(orders[k], fills) ==>
                  orders[k].id in ate && ate[orders[k].id] == sim[k]
      invariant forall id :: id in ate ==> id in eaten || id in DrawnIds(orders, fills)
      invariant forall id :: id in eaten && id !in DrawnIds(orders, fills) ==> id in ate && ate[id] == eaten[id]
    {
      if Drawn(orders[i], fills) {
        assert orders[i].id in DrawnIds(orders, fills);
        ate := ate[orders[i].id := sim[i]];
      }
      i := i + 1;
    }
    forall id | id in DrawnIds(orders, fills) ensures id in ate && id in fills && id in IdSet(orders) {
      var k :| 0 <= k < |orders| && Drawn(orders[k], fills) && orders[k].id == id;
    }
  }

  /** The dry-run `current` loop (`current_orders[oid] = o`), visiting the
      ledger oldest first. */
  method CollectCurrent(orders: seq<Order>, fills: set<Id>, current: map<Id, Order>)
    returns (cur: map<Id, Order>)
    requires DistinctIds(orders)
    ensures CurrentReport(orders, fills, current, cur)
    ensures forall k :: 0 <= k < |orders| && !Filled(orders[k]) && orders[k].id !in fills ==>
              orders[k].id in cur && cur[orders[k].id] == orders[k]
    ensures forall id :: id in cur && id !in current ==> id in IdSet(orders)
    ensures forall id :: id !in IdSet(orders) && id in current ==> id in cur && cur[id] == current[id]
  {
    cur := current;
    var i := 0;
    while i < |orders|
      invariant 0 <= i <= |orders|
      invariant forall k :: 0 <= k < i && Waiting(orders[k], fills) ==>
                  orders[k].id in cur && cur[orders[k].id] == orders[k]
      invariant forall id :: id in cur ==> id in current || id in WaitingIds(orders, fills)
      invariant forall id :: id in current && id !in WaitingIds(orders, fills) ==> id in cur && cur[id] == current[id]
    {
      if Waiting(orders[i], fills) {
        assert orders[i].id in WaitingIds(orders, fills);
        cur := cur[orders[i].id := orders[i]];
      }
      i := i + 1;
    }
    forall id | id in WaitingIds(orders, fills) ensures id in cur && id in IdSet(orders) {
      var k :| 0 <= k < |orders| && Waiting(orders[k], fills) && orders[k].id == id;
    }
  }

  /** The ledger after `Desk.tick`: unchanged in live mode; in dry-run mode
      every order replaced by its simulated state. */
  function ReconciledDesk(d: Desk, fills: set<Id>): (r: Desk)
    requires DeskInvariant(d)
    ensures DeskInvariant(r)
    ensures r.minOrderSize == d.minOrderSize && r.execute == d.execute
    ensures d.execute ==> r == d
    ensures !d.execute ==>
              && |r.orders| == |d.orders|
              && forall i :: 0 <= i < |d.orders| ==> r.orders[i] == Simulated(d.orders[i], fills)
  {
    if d.execute then d
    else
      var orders := seq(|d.orders|, k requires 0 <= k < |d.orders| => Simulated(d.orders[k], fills));
      assert forall k :: 0 <= k < |orders| ==> orders[k].id == d.orders[k].id && WellFormed(orders[k]);
      d.(orders := orders)
  }

  /** `Desk.tick`. In dry-run mode each unfilled order whose id is in
      `fills` (standing for the source's coin flip) is filled completely and
      reported in `eaten`; every other unfilled order is reported in
      `current`; filled orders are left alone. In live mode the source calls
      `fill()` without its argument for each eaten id, which raises, so only
      an empty `eaten` passes. */
  method Reconcile(d: Desk, fills: set<Id>, current: map<Id, Order>, eaten: map<Id, Order>)
    returns (r: Result<Reconciled, DeskError>)
    requires DeskInvariant(d)
    ensures d.execute ==> (r.Ok? <==> |eaten| == 0)
    ensures d.execute && r.Ok? ==> r.value == Reconciled(d, current, eaten)
    ensures !d.execute ==> r.Ok?
    ensures r.Ok? ==> r.value.desk == ReconciledDesk(d, fills)
    ensures r.Ok? && !d.execute ==>
              && EatenReport(d.orders, r.value.desk.orders, fills, eaten, r.value.eaten)
              && CurrentReport(d.orders, fills, current, r.value.current)
    ensures r.Ok? ==> r.value.desk.minOrderSize == d.minOrderSize && r.value.desk.execute == d.execute
    ensures r.Ok? ==> DeskInvariant(r.value.desk)
    ensures r.Ok? && !d.execute ==>
              && |r.value.desk.orders| == |d.orders|
              && forall i :: 0 <= i < |d.orders| ==> r.value.desk.orders[i] == Simulated(d.orders[i], fills)
    ensures r.Ok? && !d.execute ==>
              forall i :: 0 <= i < |d.orders| && !Filled(d.orders[i]) && d.orders[i].id in fills ==>
                d.orders[i].id in r.value.eaten && r.value.eaten[d.orders[i].id] == r.value.desk.orders[i]
    ensures r.Ok? && !d.execute ==>
              forall i :: 0 <= i < |d.orders| && !Filled(d.orders[i]) && d.orders[i].id !in fills ==>
                d.orders[i].id in r.value.current && r.value.current[d.orders[i].id] == d.orders[i]
    ensures r.Ok? ==> forall id :: id in r.value.eaten && id !in eaten ==> id in fills && id in IdSet(d.orders)
    ensures r.Ok? ==> forall id :: id in r.value.current && id !in current ==> id in IdSet(d.orders)
    ensures r.Ok? ==> forall id :: id !in IdSet(d.orders) && id in eaten ==>
                        id in r.value.eaten && r.value.eaten[id] == eaten[id]
    ensures r.Ok? ==> forall id :: id !in IdSet(d.orders) && id in current ==>
                        id in r.value.current && r.value.current[id] == current[id]
  {
    if d.execute {
      if |eaten| == 0 {
        return Ok(Reconciled(d, current, eaten));
      }
      return Err(FillWithoutVolume);
    }
    var d1 := ReconciledDesk(d, fills);
    var ate := CollectEaten(d.orders, d1.orders, fills, eaten);
    var cur := CollectCurrent(d.orders, fills, current);
    r := Ok(Reconciled(d1, cur, ate));
  }
}

=== FILE: dynamic_mm.dfy ===
/** The spread controller of the dynamic market-making strategy. The first
    tick only records the midpoint, the second also records the volatility,
    and from the third tick on the spread follows the change of volatility,
    is multiplied up after a quote the market ran through, and a bid and an
    ask are re-quoted whenever the balance covers them. The order book, the
    pricing and sizing helpers and the balance are inputs. */
module DynamicMM {
  import opened Wrappers
  import opened Money
  import opened Venue

  /** A missing field of the source object is `None` here. */
  datatype MarketMaker = MarketMaker(
    spread: real,
    spreadAdjust: real,
    spreadOnLoss: real,
    baseVolume: Money,
    midpoint: Option<real>,
    lastMidpoint: Option<real>,
    volat: Option<real>,
    lastVolat: Option<real>,
    lastBid: Option<Money>,
    lastAsk: Option<Money>)

  datatype ConfigError = LossCoefNotAboveAdjust

  /** `configure`: the loss coefficient must exceed the adjustment
      coefficient. */
  function Configure(spread: real, baseVolume: Money, spreadAdjust: real, spreadOnLoss: real)
    : (r: Result<MarketMaker, ConfigError>)
    ensures r.Ok? <==> spreadOnLoss > spreadAdjust
    ensures r.Ok? ==> Fresh(r.value) && r.value.spread == spread && r.value.baseVolume == baseVolume
    ensures r.Ok? ==> r.value.spreadAdjust == spreadAdjust && r.value.spreadOnLoss == spreadOnLoss
  {
    if spreadOnLoss > spreadAdjust then
      Ok(MarketMaker(spread, spreadAdjust, spreadOnLoss, baseVolume, None, None, None, None, None, None))
    else Err(LossCoefNotAboveAdjust)
  }

  /** The warm-up phases: nothing seen, one midpoint seen, volatility known. */
  predicate Fresh(m: MarketMaker) {
    m.midpoint.None? && m.volat.None? && m.lastBid.None? && m.lastAsk.None?
  }

  predicate Primed(m: MarketMaker) {
    m.midpoint.Some? && m.volat.None? && m.lastBid.None? && m.lastAsk.None?
  }

  predicate Running(m: MarketMaker) {
    m.midpoint.Some? && m.volat.Some?
  }

  /** The previous quotes were crossed by the new midpoint: our ask lies
      below it or our bid above it. */
  predicate LossSignal(m: MarketMaker, midpoint: real) {
    (m.lastAsk.Some? && m.lastAsk.value.amount < midpoint)
    || (m.lastBid.Some? && m.lastBid.value.amount > midpoint)
  }

  function Abs(x: real): real {
    if x < 0.0 then -x else x
  }

  /** The move between two midpoints relative to the older one. */
  function Volatility(midpoint: real, last: real): (v: real)
    requires last != 0.0
    ensures v * last == Abs(midpoint - last)
    ensures last > 0.0 ==> v >= 0.0
    ensures v == 0.0 <==> midpoint == last
  {
    Abs(midpoint - last) / last
  }

  datatype TickError =
    | ZeroLastMidpoint            // the volatility divides by the previous midpoint
    | MissingBalance(c: Currency) // the balance has no entry for a quoted currency

  /** What the venue and the helper libraries answer during a running tick:
      the volumes to quote and the balance per currency. */
  datatype Market = Market(midpoint: real, bidVolume: Money, askVolume: Money, balance: map<Currency, real>)

  /** `placeable_bid`: the quote balance covers the bid's cost. */
  function PlaceableBid(balance: map<Currency, real>, bidPrice: Money, bidVolume: Money): (r: Result<bool, TickError>)
    ensures r.Err? <==> bidPrice.currency !in balance
    ensures r.Ok? ==> (r.value <==> balance[bidPrice.currency] > bidPrice.amount * bidVolume.amount)
  {
    if bidPrice.currency in balance then Ok(balance[bidPrice.currency] > bidPrice.amount * bidVolume.amount)
    else Err(MissingBalance(bidPrice.currency))
  }

  /** `placeable_ask`: the stake balance covers the ask's volume. */
  function PlaceableAsk(balance: map<Currency, real>, askVolume: Money): (r: Result<bool, TickError>)
    ensures r.Err? <==> askVolume.currency !in balance
    ensures r.Ok? ==> (r.value <==> balance[askVolume.currency] > askVolume.amount)
  {
    if askVolume.currency in balance then Ok(balance[askVolume.currency] > askVolume.amount)
    else Err(MissingBalance(askVolume.currency))
  }

  /** The spread after the safety check. */
  function GuardedSpread(m: MarketMaker, midpoint: real): real {
    if LossSignal(m, midpoint) then m.spread * m.spreadOnLoss else m.spread
  }

  /** The spread a running tick quotes with: the guarded spread moved by the
      change of volatility. */
  function RunningSpread(m: MarketMaker, midpoint: real): real
    requires Running(m) && m.midpoint.value != 0.0
  {
    m.spreadAdjust * (Volatility(midpoint, m.midpoint.value) - m.volat.value) + GuardedSpread(m, midpoint)
  }

  /** `DynamicMarketMaking.tick`. `quote` stands for the library's centred
      fixed-spread pricing: it maps a spread to a bid price and an ask price. */
  function Tick(m: MarketMaker, mk: Market, quote: real -> (Money, Money)): (r: Result<(MarketMaker, seq<Call>), TickError>)
    // first tick: record the midpoint, nothing else
    ensures m.midpoint.None? ==> r == Ok((m.(midpoint := Some(mk.midpoint)), []))
    // every later tick shifts the midpoints
    ensures m.midpoint.Some? && r.Ok? ==>
              r.value.0.midpoint == Some(mk.midpoint) && r.value.0.lastMidpoint == m.midpoint
    ensures m.midpoint.Some? ==> (r == Err(ZeroLastMidpoint) <==> m.midpoint.value == 0.0)
    // second tick: record the volatility, no trading
    ensures m.midpoint.Some? && m.volat.None? && r.Ok? ==>
              && r.value.1 == []
              && r.value.0.volat == Some(Volatility(mk.midpoint, m.midpoint.value))
              && r.value.0.spread == GuardedSpread(m, mk.midpoint)
    // running ticks: the spread follows the change of volatility after the
    // safety multiplication, and the orders are re-quoted
    ensures m.midpoint.Some? && m.volat.Some? && r.Ok? ==>
              && r.value.0.lastVolat == m.volat
              && r.value.0.volat == Some(Volatility(mk.midpoint, m.midpoint.value))
              && r.value.0.spread - GuardedSpread(m, mk.midpoint)
                 == m.spreadAdjust * (r.value.0.volat.value - m.volat.value)
              && r.value.0.lastBid == Some(quote(r.value.0.spread).0)
              && r.value.0.lastAsk == Some(quote(r.value.0.spread).1)
              && |r.value.1| >= 1 && r.value.1[0] == CancelAllOpenOrders
              && quote(r.value.0.spread).0.currency in mk.balance && mk.askVolume.currency in mk.balance
              && (PlaceOrder(LimitKind, Bid, mk.bidVolume, quote(r.value.0.spread).0) in r.value.1
                  <==> mk.balance[quote(r.value.0.spread).0.currency]
                       > quote(r.value.0.spread).0.amount * mk.bidVolume.amount)
              && (PlaceOrder(LimitKind, Ask, mk.askVolume, quote(r.value.0.spread).1) in r.value.1
                  <==> mk.balance[mk.askVolume.currency] > mk.askVolume.amount)
    // the exact calls: cancel everything, then the BID and the ASK when placeable
    ensures m.midpoint.Some? && m.volat.Some? && r.Ok? ==>
              var bid := quote(r.value.0.spread).0;
              var ask := quote(r.value.0.spread).1;
              && bid.currency in mk.balance && mk.askVolume.currency in mk.balance
              && r.value.1 == [CancelAllOpenOrders]
                              + (if mk.balance[bid.currency] > bid.amount * mk.bidVolume.amount
                                 then [PlaceOrder(LimitKind, Bid, mk.bidVolume, bid)] else [])
                              + (if mk.balance[mk.askVolume.currency] > mk.askVolume.amount
                                 then [PlaceOrder(LimitKind, Ask, mk.askVolume, ask)] else [])
    // the balance must list both quoted currencies
    ensures m.midpoint.Some? && m.volat.Some? && m.midpoint.value != 0.0 ==>
              (r.Err? <==> quote(RunningSpread(m, mk.midpoint)).0.currency !in mk.balance || mk.askVolume.currency !in mk.balance)
    ensures r.Ok? ==> r.value.0.spreadAdjust == m.spreadAdjust && r.value.0.spreadOnLoss == m.spreadOnLoss
                      && r.value.0.baseVolume == m.baseVolume
  {
    if m.midpoint.None? then Ok((m.(midpoint := Some(mk.midpoint)), []))
    else
      var last := m.midpoint.value;
      if last == 0.0 then Err(ZeroLastMidpoint)
      else
        var v := Volatility(mk.midpoint, last);
        var m1 := m.(lastMidpoint := m.midpoint, midpoint := Some(mk.midpoint), spread := GuardedSpread(m, mk.midpoint));
        if m.volat.None? then Ok((m1.(volat := Some(v)), []))
        else
          var spread := RunningSpread(m, mk.midpoint);
          var (bid, ask) := quote(spread);
          match PlaceableBid(mk.balance, bid, mk.bidVolume)
          case Err(e) => Err(e)
          case Ok(placeBid) =>
            match PlaceableAsk(mk.balance, mk.askVolume)
            case Err(e) => Err(e)
            case Ok(placeAsk) =>
              var calls := [CancelAllOpenOrders]
                           + (if placeBid then [PlaceOrder(LimitKind, Bid, mk.bidVolume, bid)] else [])
                           + (if placeAsk then [PlaceOrder(LimitKind, Ask, mk.askVolume, ask)] else []);
              Ok((m1.(lastVolat := m.volat, volat := Some(v), spread := spread,
                      lastBid := Some(bid), lastAsk := Some(ask)), calls))
  }

  /** Each tick advances the warm-up by one phase until the controller runs;
      a running controller stays running. */
  lemma PhasesAdvance(m: MarketMaker, mk: Market, quote: real -> (Money, Money))
    ensures Fresh(m) ==> Tick(m, mk, quote).Ok? && Primed(Tick(m, mk, quote).value.0)
    ensures Primed(m) && Tick(m, mk, quote).Ok? ==> Running(Tick(m, mk, quote).value.0)
    ensures Running(m) && Tick(m, mk, quote).Ok? ==> Running(Tick(m, mk, quote).value.0)
  {
  }

  /** The first two ticks after configuration neither cancel nor place
      orders, and the third (if it succeeds) starts by cancelling. */
  lemma WarmUpIsQuiet(m: MarketMaker, mk1: Market, mk2: Market, mk3: Market, quote: real -> (Money, Money))
    requires Fresh(m)
    requires mk1.midpoint != 0.0
    ensures var r1 := Tick(m, mk1, quote);
            && r1.Ok? && r1.value.1 == []
            && Tick(r1.value.0, mk2, quote).Ok?
            && Tick(r1.value.0, mk2, quote).value.1 == []
            && var r3 := Tick(Tick(r1.value.0, mk2, quote).value.0, mk3, quote);
               (r3.Ok? ==> r3.value.1[0] == CancelAllOpenOrders)
  {
    var r1 := Tick(m, mk1, quote);
    assert Primed(r1.value.0);
    var r2 := Tick(r1.value.0, mk2, quote);
    assert Running(r2.value.0);
  }

  /** Without a loss signal the quantity `spread - adjust*volat` is conserved
      by a running tick: the spread moves exactly with the volatility. */
  lemma SpreadFollowsVolatility(m: MarketMaker, mk: Market, quote: real -> (Money, Money))
    requires Running(m) && !LossSignal(m, mk.midpoint)
    requires Tick(m, mk, quote).Ok?
    ensures var m' := Tick(m, mk, quote).value.0;
            m'.spread - m.spreadAdjust * m'.volat.value == m.spread - m.spreadAdjust * m.volat.value
  {
    var m' := Tick(m, mk, quote).value.0;
    assert m'.spread - m.spread == m.spreadAdjust * (m'.volat.value - m.volat.value);
  }
}

=== FILE: hodl.dfy ===
/** The per-trade state machine `Trade` of the market-hodl strategy (with the
    exit helpers it inherits from `Position`): enter with one BID, then on
    every tick forget order ids the venue no longer lists, place a limit exit
    at the profit target once the bought volume is in the balance, and sell
    at market once the deadline has passed. */
module HodlTrade {
  import opened Wrappers
  import opened Money
  import opened Venue

  /** `deadline` is the instant `timeout` stands for; time is an integer. */
  datatype Trade = Trade(
    minOrderSize: Money,
    profitPct: real,
    lossPct: real,
    deadline: int,
    orderVolume: Option<Money>,
    enteredPrice: Option<Money>,
    exitedPrice: Option<Money>,
    enterId: Option<Id>,
    exitId: Option<Id>)

  function NewTrade(minOrderSize: Money, profitPct: real, lossPct: real, deadline: int): (t: Trade)
    ensures t.orderVolume == None && t.enteredPrice == None && t.exitedPrice == None
    ensures !Truthy(t.enterId) && !Truthy(t.exitId)
  {
    Trade(minOrderSize, profitPct, lossPct, deadline, None, None, None, None, None)
  }

  /** An order id counts only when it is set and non-empty. */
  predicate Truthy(id: Option<Id>) {
    id.Some? && id.value != ""
  }

  /** What an enter or exit attempt did: the new state, the venue calls it
      made and the id it hands back (`None` for "nothing"). */
  datatype Step = Step(trade: Trade, calls: seq<Call>, returned: Option<Id>)

  /** `limit_enter` / `market_enter`. */
  function Enter(t: Trade, kind: Kind, volume: Money, price: Money, reply: Reply): (s: Step)
    ensures volume.amount <= t.minOrderSize.amount ==> s == Step(t, [], None)
    ensures volume.amount > t.minOrderSize.amount ==>
              && s.calls == [PlaceOrder(kind, Bid, volume, price)]
              && s.trade.exitId == t.exitId && s.trade.exitedPrice == t.exitedPrice
              && s.trade.enterId == (if reply.Replied? then Some(reply.orderId) else t.enterId)
    ensures volume.amount > t.minOrderSize.amount && reply.Replied? && !reply.success ==>
              s.returned == None && s.trade == t.(enterId := Some(reply.orderId))
    ensures volume.amount > t.minOrderSize.amount && !(reply.Replied? && !reply.success) ==>
              && s.trade == t.(enterId := s.trade.enterId, orderVolume := Some(volume), enteredPrice := Some(price))
              && s.returned == s.trade.enterId
  {
    if volume.amount > t.minOrderSize.amount then
      var call := PlaceOrder(kind, Bid, volume, price);
      match reply
      case NoReply =>
        Step(t.(orderVolume := Some(volume), enteredPrice := Some(price)), [call], t.enterId)
      case Replied(success, id) =>
        if !success then Step(t.(enterId := Some(id)), [call], None)
        else Step(t.(enterId := Some(id), orderVolume := Some(volume), enteredPrice := Some(price)),
                  [call], Some(id))
    else Step(t, [], None)
  }

  datatype TradeError =
    | NoOrderVolume    // `order_volume.currency` read while the volume is still `None`
    | NoEnteredPrice   // `entered_price` is still `None`

  /** `limit_exit` / `market_exit` (inherited from `Position`): offer the
      entered volume at `price`. Before any entry the volume is `None`, which
      compares as not above the minimum, so nothing is offered. */
  function Exit(t: Trade, kind: Kind, price: Money, reply: Reply): (s: Step)
    ensures t.orderVolume.None? || t.orderVolume.value.amount <= t.minOrderSize.amount ==> s == Step(t, [], None)
    ensures t.orderVolume.Some? && t.orderVolume.value.amount > t.minOrderSize.amount ==>
              && s.calls == [PlaceOrder(kind, Ask, t.orderVolume.value, price)]
              && s.trade.exitedPrice == Some(price)
              && s.trade.exitId == (if reply.Replied? then Some(reply.orderId) else t.exitId)
              && s.trade == t.(exitedPrice := Some(price), exitId := s.trade.exitId)
              && s.returned == (if reply.Replied? && !reply.success then None else s.trade.exitId)
  {
    if t.orderVolume.Some? && t.orderVolume.value.amount > t.minOrderSize.amount then
      var t' := t.(exitedPrice := Some(price));
      var call := PlaceOrder(kind, Ask, t.orderVolume.value, price);
      match reply
      case NoReply => Step(t', [call], t'.exitId)
      case Replied(success, id) =>
        Step(t'.(exitId := Some(id)), [call], if success then Some(id) else None)
    else Step(t, [], None)
  }

  /** `exit_profit_price`: the entry price raised by the profit target. */
  function ExitProfitPrice(t: Trade): (r: Result<Money, TradeError>)
    ensures r.Err? <==> t.enteredPrice.None?
    ensures r.Ok? ==> r.value.currency == t.enteredPrice.value.currency
    ensures r.Ok? ==> r.value.amount - t.enteredPrice.value.amount == t.enteredPrice.value.amount * t.profitPct
  {
    match t.enteredPrice
    case None => Err(NoEnteredPrice)
    case Some(p) => Ok(Money(p.amount * (1.0 + t.profitPct), p.currency))
  }

  /** `exit_loss_price`: the entry price lowered by the accepted loss. */
  function ExitLossPrice(t: Trade): (r: Result<Money, TradeError>)
    ensures r.Err? <==> t.enteredPrice.None?
    ensures r.Ok? ==> r.value.currency == t.enteredPrice.value.currency
    ensures r.Ok? ==> t.enteredPrice.value.amount - r.value.amount == t.enteredPrice.value.amount * t.lossPct
  {
    match t.enteredPrice
    case None => Err(NoEnteredPrice)
    case Some(p) => Ok(Money(p.amount * (1.0 - t.lossPct), p.currency))
  }

  /** With a non-negative entry price and non-negative percentages the profit
      target is never below the loss limit. */
  lemma ProfitNotBelowLoss(t: Trade)
    requires t.enteredPrice.Some? && t.enteredPrice.value.amount >= 0.0
    requires t.profitPct >= 0.0 && t.lossPct >= 0.0
    ensures ExitProfitPrice(t).Ok? && ExitLossPrice(t).Ok?
    ensures ExitProfitPrice(t).value.amount >= ExitLossPrice(t).value.amount
  {
    var p := t.enteredPrice.value.amount;
    var spread := t.profitPct + t.lossPct;
    assert p * (1.0 + t.profitPct) - p * (1.0 - t.lossPct) == p * spread;
    assert p * spread >= 0.0 by {
      if p > 0.0 && spread > 0.0 {
        assert p * spread > 0.0;
      }
    }
  }

  /** Forget `id` unless the venue still lists it among the open orders. */
  function Reconcile(id: Option<Id>, open: seq<Id>): (r: Option<Id>)
    ensures Truthy(id) && id.value !in open ==> r == None
    ensures !(Truthy(id) && id.value !in open) ==> r == id
  {
    if Truthy(id) && id.value !in open then None else id
  }

  /** The balance lookup `balance.get(c) > v`: a missing currency compares as
      not greater. */
  predicate HasMoreThan(balance: map<Currency, real>, v: Money) {
    v.currency in balance && balance[v.currency] > v.amount
  }

  /** The branch `Trade.tick` takes once the ids are reconciled: a limit exit
      when no exit rests and the entered volume is in the balance, else a
      market exit when the deadline has passed, else nothing. */
  predicate WantsLimitExit(t: Trade, balance: map<Currency, real>, open: seq<Id>) {
    !Truthy(Reconcile(t.exitId, open)) && t.orderVolume.Some? && HasMoreThan(balance, t.orderVolume.value)
  }

  /** The calls an exit of the entered volume at `price` makes. */
  function ExitCalls(t: Trade, kind: Kind, price: Money): seq<Call> {
    if t.orderVolume.Some? && t.orderVolume.value.amount > t.minOrderSize.amount
    then [PlaceOrder(kind, Ask, t.orderVolume.value, price)]
    else []
  }

  /** `Trade.tick`: `open` are the ids the venue lists, `now` the clock and
      `reply` the venue's answer to an exit order if one is placed. The tick
      first logs `str(self)`, which reads `exit_loss_price` and so fails on
      a trade without an entry price before anything else happens. */
  function Tick(t: Trade, balance: map<Currency, real>, midpoint: Money, open: seq<Id>, now: int, reply: Reply)
    : (r: Result<(Trade, seq<Call>), TradeError>)
    ensures r.Err? <==>
              || t.enteredPrice.None?
              || (t.orderVolume.None? && !Truthy(Reconcile(t.exitId, open)))
    ensures t.enteredPrice.None? ==> r == Err(NoEnteredPrice)
    ensures t.enteredPrice.Some? && r.Err? ==> r == Err(NoOrderVolume)
    ensures r.Ok? ==>
              && r.value.0.enterId == Reconcile(t.enterId, open)
              && r.value.0.orderVolume == t.orderVolume && r.value.0.enteredPrice == t.enteredPrice
              && r.value.0.deadline == t.deadline && r.value.0.minOrderSize == t.minOrderSize
    ensures r.Ok? ==>
              r.value.0 == t.(enterId := Reconcile(t.enterId, open),
                              exitId := r.value.0.exitId, exitedPrice := r.value.0.exitedPrice)
    ensures r.Ok? && WantsLimitExit(t, balance, open) ==>
              && ExitProfitPrice(t).Ok?
              && r.value.1 == ExitCalls(t, LimitKind, ExitProfitPrice(t).value)
              && (r.value.1 != [] ==> r.value.0.exitedPrice == Some(ExitProfitPrice(t).value))
    ensures r.Ok? && WantsLimitExit(t, balance, open) ==>
              var placed := ExitCalls(t, LimitKind, ExitProfitPrice(t).value) != [];
              && r.value.0.exitId == (if placed && reply.Replied? then Some(reply.orderId) else Reconcile(t.exitId, open))
              && (!placed ==> r.value.0.exitedPrice == t.exitedPrice)
    ensures r.Ok? && !WantsLimitExit(t, balance, open) && t.deadline < now ==>
              var placed := ExitCalls(t, MarketKind, midpoint) != [];
              && r.value.0.exitId == (if placed && reply.Replied? then Some(reply.orderId) else Reconcile(t.exitId, open))
              && (!placed ==> r.value.0.exitedPrice == t.exitedPrice)
    ensures r.Ok? && !WantsLimitExit(t, balance, open) && t.deadline < now ==>
              var resting := Reconcile(t.exitId, open);
              && r.value.1 == (if Truthy(resting) then [CancelOrder(resting.value)] else [])
                              + ExitCalls(t, MarketKind, midpoint)
              && (ExitCalls(t, MarketKind, midpoint) != [] ==>
                    r.value.0.exitedPrice == Some(midpoint))
    ensures r.Ok? && !WantsLimitExit(t, balance, open) && now <= t.deadline ==>
              r.value == (t.(enterId := Reconcile(t.enterId, open), exitId := Reconcile(t.exitId, open)), [])
  {
    var t1 := t.(enterId := Reconcile(t.enterId, open), exitId := Reconcile(t.exitId, open));
    if ExitLossPrice(t).Err? then Err(NoEnteredPrice)
    else if !Truthy(t1.exitId) && t.orderVolume.None? then Err(NoOrderVolume)
    else if !Truthy(t1.exitId) && HasMoreThan(balance, t.orderVolume.value) then
      match ExitProfitPrice(t)
      case Err(e) => Err(e)
      case Ok(target) =>
        var s := Exit(t1, LimitKind, target, reply);
        Ok((s.trade, s.calls))
    else if t.deadline < now then
      var cancel := if Truthy(t1.exitId) then [CancelOrder(t1.exitId.value)] else [];
      var s := Exit(t1, MarketKind, midpoint, reply);
      Ok((s.trade, cancel + s.calls))
    else Ok((t1, []))
  }

  /** Past the deadline with an exit still listed and an entry price but no
      entered volume, the tick cancels that exit and offers nothing: the
      missing volume compares as not above the minimum. */
  lemma DeadlineWithoutVolumeOnlyCancels(t: Trade, balance: map<Currency, real>, midpoint: Money,
                                         open: seq<Id>, now: int, reply: Reply)
    requires Truthy(t.exitId) && t.exitId.value in open
    requires t.orderVolume.None? && t.enteredPrice.Some? && t.deadline < now
    ensures Tick(t, balance, midpoint, open, now, reply).Ok?
    ensures Tick(t, balance, midpoint, open, now, reply).value.1 == [CancelOrder(t.exitId.value)]
    ensures Tick(t, balance, midpoint, open, now, reply).value.0.exitedPrice == t.exitedPrice
  {
  }

  /** Ids the venue still lists survive a tick; ids it no longer lists are
      forgotten; and a second reconciliation against the same list changes
      nothing. */
  lemma ReconcileKeepsListed(id: Option<Id>, open: seq<Id>)
    ensures Truthy(id) && id.value in open ==> Reconcile(id, open) == id
    ensures Truthy(id) && id.value !in open ==> !Truthy(Reconcile(id, open))
    ensures Reconcile(Reconcile(id, open), open) == Reconcile(id, open)
  {
  }

  /** After a successful entry of `V` at `P` (with `V` above the minimum), a
      tick that finds more than `V` of the bought currency in the balance and
      no resting exit places exactly one limit ASK of `V` at `P*(1+profit)`. */
  lemma EnterThenLimitExit(t: Trade, kind: Kind, volume: Money, price: Money, id: Id,
                           balance: map<Currency, real>, midpoint: Money, open: seq<Id>, now: int, reply: Reply)
    requires volume.amount > t.minOrderSize.amount
    requires !Truthy(t.exitId)
    requires HasMoreThan(balance, volume)
    ensures var s := Enter(t, kind, volume, price, Replied(true, id));
            && s.returned == Some(id)
            && Tick(s.trade, balance, midpoint, open, now, reply).Ok?
            && Tick(s.trade, balance, midpoint, open, now, reply).value.1
               == [PlaceOrder(LimitKind, Ask, volume, Money(price.amount * (1.0 + t.profitPct), price.currency))]
  {
    var s := Enter(t, kind, volume, price, Replied(true, id));
    assert s.trade.orderVolume == Some(volume) && s.trade.enteredPrice == Some(price);
    assert WantsLimitExit(s.trade, balance, open);
    assert s.trade.profitPct == t.profitPct;
    assert ExitProfitPrice(s.trade).value.amount == price.amount * (1.0 + t.profitPct);
    assert ExitProfitPrice(s.trade) == Ok(Money(price.amount * (1.0 + t.profitPct), price.currency));
  }

  /** Past the deadline, with an exit still resting and the funds not (or no
      longer) in the balance, the tick cancels that exit before selling the
      entered volume at the midpoint. */
  lemma DeadlineCancelsThenSells(t: Trade, balance: map<Currency, real>, midpoint: Money,
                                 open: seq<Id>, now: int, reply: Reply)
    requires Truthy(t.exitId) && t.exitId.value in open
    requires t.orderVolume.Some? && t.orderVolume.value.amount > t.minOrderSize.amount
    requires t.enteredPrice.Some? && t.deadline < now
    ensures Tick(t, balance, midpoint, open, now, reply).Ok?
    ensures Tick(t, balance, midpoint, open, now, reply).value.1
            == [CancelOrder(t.exitId.value), PlaceOrder(MarketKind, Ask, t.orderVolume.value, midpoint)]
  {
  }
}

=== FILE: invest.dfy ===
/** The decision part of `InvestSingle.tick`: reconcile the desk, feed the
    midpoint to the trend observer, enter at market on a bull signal when
    the ledger allows it, then try to exit at the profit target. Balances and
    the order book are read from the venue in the source; only the midpoint
    they yield matters here and it is an input. */
module InvestSingle {
  import opened Wrappers
  import opened Money
  import opened Venue
  import opened Orders
  import opened Desk
  import opened Tracker
  import Obs = Observer

  datatype Strategy = Strategy(desk: Desk, observer: Obs.Observer, tracker: Tracker, baseVolume: Money)

  predicate StrategyInvariant(s: Strategy) {
    DeskInvariant(s.desk) && Obs.ObserverInvariant(s.observer)
  }

  /** What the venue and the fill simulator decide during one tick. */
  datatype Venues = Venues(
    fills: set<Id>,
    midpoint: Money,
    entryReply: Reply, entryId: Id,
    exitReply: Reply, exitId: Id)

  datatype TickError =
    | DeskFailed(e: DeskError)
    | PositionFailed(id: Id)          // `KeyError` while building the position
    | ObserverFailed(cause: Obs.ObserverError)
    | ZeroStakePrice                  // the profit price divides by a zero stake
    | UnansweredLiveOrder             // `assert not self.harness.execute` in `_place_order`

  /** The exit decided on: none, none because the price is unavailable or
      zero, or an ASK at market (at the midpoint) or limit (at the target). */
  datatype ExitChoice = NoExit | CannotPrice | MarketExitAt(price: Money) | LimitExitAt(price: Money)

  /** `on_bull_trend`'s guard: no position yet, or the last fill was an exit
      and no entry is pending. */
  predicate MayEnter(d: Desk, pos: Position) {
    pos == map[] || (Exited(d) && !Entering(d))
  }

  /** Whether and how to exit, from the ledger after the entry step. The
      source's `if exit_profit_price:` is read as "the price is non-zero". */
  function ChooseExit(t: Tracker, d: Desk, pos: Position, midpoint: Money): (r: Result<ExitChoice, TickError>)
    ensures !(pos != map[] && Entered(d) && !Exiting(d)) ==> r == Ok(NoExit)
    ensures r.Ok? && r.value != NoExit ==> pos != map[] && Entered(d) && !Exiting(d)
    ensures r.Err? <==> pos != map[] && Entered(d) && !Exiting(d)
                        && ExitProfitPrice(t, pos, t.quote, t.stake).ZeroStake?
    ensures r.Err? ==> r.error == ZeroStakePrice
    ensures r.Ok? && r.value.MarketExitAt? ==>
              && r.value.price == midpoint
              && ExitProfitPrice(t, pos, t.quote, t.stake).Price?
              && midpoint.amount > ExitProfitPrice(t, pos, t.quote, t.stake).value
    ensures r.Ok? && r.value.LimitExitAt? ==>
              && ExitProfitPrice(t, pos, t.quote, t.stake) == Price(r.value.price.amount)
              && r.value.price.currency == t.quote
              && midpoint.amount <= r.value.price.amount
              && r.value.price.amount != 0.0
    ensures && pos != map[] && Entered(d) && !Exiting(d)
            && ExitProfitPrice(t, pos, t.quote, t.stake).Price?
            && ExitProfitPrice(t, pos, t.quote, t.stake).value != 0.0
            ==> r.Ok? && (r.value.MarketExitAt? || r.value.LimitExitAt?)
    ensures r.Ok? && r.value == CannotPrice <==>
              pos != map[] && Entered(d) && !Exiting(d)
              && (ExitProfitPrice(t, pos, t.quote, t.stake).Unavailable?
                  || ExitProfitPrice(t, pos, t.quote, t.stake) == Price(0.0))
  {
    if pos != map[] && Entered(d) && !Exiting(d) then
      match ExitProfitPrice(t, pos, t.quote, t.stake)
      case Unavailable => Ok(CannotPrice)
      case ZeroStake => Err(ZeroStakePrice)
      case Price(p) =>
        if p == 0.0 then Ok(CannotPrice)
        else if midpoint.amount > p then Ok(MarketExitAt(midpoint))
        else Ok(LimitExitAt(Money(p, t.quote)))
    else Ok(NoExit)
  }

  datatype ExitPlan = ExitPlan(choice: ExitChoice, placement: Option<Placement>)

  /** Decide the exit and, for a market or limit exit, offer the whole stake. */
  function ExitStep(t: Tracker, d: Desk, v: Venues): (r: Result<ExitPlan, TickError>)
    requires DeskInvariant(d)
    ensures EphemeralPosition(d.orders).Err? ==> r == Err(PositionFailed(EphemeralPosition(d.orders).error))
    ensures r.Err? ==> r.error.PositionFailed? || r.error == ZeroStakePrice
    ensures r.Ok? ==>
              var pos := EphemeralPosition(d.orders).value;
              && EphemeralPosition(d.orders).Ok?
              && ChooseExit(t, d, pos, v.midpoint) == Ok(r.value.choice)
              && (r.value.placement.Some? ==>
                    && (r.value.choice.MarketExitAt? || r.value.choice.LimitExitAt?)
                    && t.stake in pos && pos[t.stake] != 0.0
                    && r.value.placement.value ==
                         Place(d, if r.value.choice.MarketExitAt? then MarketKind else LimitKind, Ask,
                               Money(pos[t.stake], t.stake), r.value.choice.price, v.exitReply, v.exitId))
              && (&& (r.value.choice.MarketExitAt? || r.value.choice.LimitExitAt?)
                  && t.stake in pos && pos[t.stake] != 0.0
                  ==> r.value.placement.Some?)
  {
    match EphemeralPosition(d.orders)
    case Err(id) => Err(PositionFailed(id))
    case Ok(pos) =>
      match ChooseExit(t, d, pos, v.midpoint)
      case Err(e) => Err(e)
      case Ok(choice) =>
        if choice.MarketExitAt? || choice.LimitExitAt? then
          var kind := if choice.MarketExitAt? then MarketKind else LimitKind;
          match Exit(t, d, kind, choice.price, v.exitReply, v.exitId)
          case Err(id) => Err(PositionFailed(id))
          case Ok(p) => Ok(ExitPlan(choice, p))
        else Ok(ExitPlan(choice, None))
  }

  /** Everything one tick decided. `reconciled` is the desk after the fill
      step, `signal` the observer's verdict, `entry` the entry attempt. */
  datatype Ticked = Ticked(
    strategy: Strategy,
    current: map<Id, Order>,
    eaten: map<Id, Order>,
    reconciled: Desk,
    signal: Option<Obs.Trend>,
    entry: Option<Placement>,
    exit: ExitPlan)

  function DeskAfterEntry(reconciled: Desk, entry: Option<Placement>): Desk {
    if entry.Some? then entry.value.desk else reconciled
  }

  /** `on_bull_trend`: a market BID of the base volume at the midpoint, on a
      bull signal, when the ledger allows an entry. */
  function OnBullTrend(s: Strategy, v: Venues, d1: Desk, signal: Option<Obs.Trend>): (e: Option<Placement>)
    requires DeskInvariant(d1) && EphemeralPosition(d1.orders).Ok?
    ensures e.Some? <==> signal == Some(Obs.Bull) && MayEnter(d1, EphemeralPosition(d1.orders).value)
    ensures e.Some? ==> DeskInvariant(e.value.desk)
  {
    if signal == Some(Obs.Bull) && MayEnter(d1, EphemeralPosition(d1.orders).value)
    then Some(Place(d1, MarketKind, Bid, s.baseVolume, v.midpoint, v.entryReply, v.entryId))
    else None
  }

  /** A placement that reached the live venue and got no answer: the
      source's assertion fails and the tick is aborted. */
  predicate Unanswered(p: Option<Placement>) {
    p.Some? && p.value.outcome == Err(LiveWithoutReply)
  }

  /** What the part of a tick after the fill step decides. */
  datatype Decision = Decision(strategy: Strategy, signal: Option<Obs.Trend>, entry: Option<Placement>, exit: ExitPlan)

  /** Entry and exit, once the position and the observer tick are known. */
  function Act(s: Strategy, v: Venues, d1: Desk, observed: Obs.Observed): (r: Result<Decision, TickError>)
    requires DeskInvariant(d1) && EphemeralPosition(d1.orders).Ok? && Obs.ObserverInvariant(observed.obs)
    ensures var entry := OnBullTrend(s, v, d1, observed.signal);
            var plan := ExitStep(s.tracker, DeskAfterEntry(d1, entry), v);
            && (Unanswered(entry) ==> r == Err(UnansweredLiveOrder))
            && (!Unanswered(entry) && plan.Err? ==> r == Err(plan.error))
            && (!Unanswered(entry) && plan.Ok? && Unanswered(plan.value.placement) ==> r == Err(UnansweredLiveOrder))
            && (!Unanswered(entry) && plan.Ok? && !Unanswered(plan.value.placement) ==>
                  && r.Ok? && r.value.entry == entry && r.value.exit == plan.value)
    ensures r == Err(UnansweredLiveOrder) ==> d1.execute && (v.entryReply.NoReply? || v.exitReply.NoReply?)
    ensures r.Err? ==> !r.error.DeskFailed?
    ensures r.Ok? ==>
              && r.value.signal == observed.signal
              && r.value.strategy.observer == observed.obs
              && (r.value.entry.Some? <==> observed.signal == Some(Obs.Bull) && MayEnter(d1, EphemeralPosition(d1.orders).value))
              && ExitStep(s.tracker, DeskAfterEntry(d1, r.value.entry), v) == Ok(r.value.exit)
              && r.value.strategy.tracker == s.tracker && r.value.strategy.baseVolume == s.baseVolume
              && (r.value.entry.Some? ==>
                    r.value.entry.value == Place(d1, MarketKind, Bid, s.baseVolume, v.midpoint, v.entryReply, v.entryId))
              && DeskInvariant(DeskAfterEntry(d1, r.value.entry))
              && r.value.strategy.desk ==
                   (if r.value.exit.placement.Some? then r.value.exit.placement.value.desk
                    else DeskAfterEntry(d1, r.value.entry))
              && DeskInvariant(r.value.strategy.desk)
  {
    var entry := OnBullTrend(s, v, d1, observed.signal);
    if Unanswered(entry) then Err(UnansweredLiveOrder)
    else
      var d2 := DeskAfterEntry(d1, entry);
      match ExitStep(s.tracker, d2, v)
      case Err(e) => Err(e)
      case Ok(plan) =>
        if Unanswered(plan.placement) then Err(UnansweredLiveOrder)
        else
          var d3 := if plan.placement.Some? then plan.placement.value.desk else d2;
          Ok(Decision(s.(desk := d3, observer := observed.obs), observed.signal, entry, plan))
  }

  /** The tick after the fill step: the position (whose `KeyError` aborts),
      the observer tick, then entry and exit. */
  function Decide(s: Strategy, v: Venues, d1: Desk): (r: Result<Decision, TickError>)
    requires DeskInvariant(d1) && Obs.ObserverInvariant(s.observer)
    ensures EphemeralPosition(d1.orders).Err? ==> r == Err(PositionFailed(EphemeralPosition(d1.orders).error))
    ensures EphemeralPosition(d1.orders).Ok? && Obs.Tick(s.observer, v.midpoint).Err? ==>
              r == Err(ObserverFailed(Obs.Tick(s.observer, v.midpoint).error))
    ensures EphemeralPosition(d1.orders).Ok? && Obs.Tick(s.observer, v.midpoint).Ok? ==>
              r == Act(s, v, d1, Obs.Tick(s.observer, v.midpoint).value)
    ensures r == Err(UnansweredLiveOrder) ==> d1.execute && (v.entryReply.NoReply? || v.exitReply.NoReply?)
    ensures r.Err? ==> !r.error.DeskFailed?
    ensures r.Ok? ==>
              && EphemeralPosition(d1.orders).Ok?
              && Obs.Tick(s.observer, v.midpoint) == Ok(Obs.Observed(r.value.strategy.observer, r.value.signal))
              && r.value.strategy.tracker == s.tracker && r.value.strategy.baseVolume == s.baseVolume
              && (r.value.entry.Some? <==> r.value.signal == Some(Obs.Bull) && MayEnter(d1, EphemeralPosition(d1.orders).value))
              && (r.value.entry.Some? ==>
                    r.value.entry.value == Place(d1, MarketKind, Bid, s.baseVolume, v.midpoint, v.entryReply, v.entryId))
              && DeskInvariant(DeskAfterEntry(d1, r.value.entry))
              && ExitStep(s.tracker, DeskAfterEntry(d1, r.value.entry), v) == Ok(r.value.exit)
              && r.value.strategy.desk ==
                   (if r.value.exit.placement.Some? then r.value.exit.placement.value.desk
                    else DeskAfterEntry(d1, r.value.entry))
              && DeskInvariant(r.value.strategy.desk)
  {
    match EphemeralPosition(d1.orders)
    case Err(id) => Err(PositionFailed(id))
    case Ok(_) =>
      match Obs.Tick(s.observer, v.midpoint)
      case Err(e) => Err(ObserverFailed(e))
      case Ok(observed) => Act(s, v, d1, observed)
  }

  /** `InvestSingle.tick`, deciding with the lockstep observer tick. */
  method Tick(s: Strategy, v: Venues, current: map<Id, Order>, eaten: map<Id, Order>)
    returns (r: Result<Ticked, TickError>)
    requires StrategyInvariant(s)
    // the fill step fails exactly in live mode with eaten ids
    ensures (r.Err? && r.error.DeskFailed?) <==> s.desk.execute && |eaten| > 0
    // and otherwise reports the reconciled ledger and the two maps
    ensures r.Ok? ==>
              && r.value.reconciled == ReconciledDesk(s.desk, v.fills)
              && (s.desk.execute ==> r.value.current == current && r.value.eaten == eaten)
              && (!s.desk.execute ==>
                    && EatenReport(s.desk.orders, r.value.reconciled.orders, v.fills, eaten, r.value.eaten)
                    && CurrentReport(s.desk.orders, v.fills, current, r.value.current))
    // then the rest of the tick decides the outcome
    ensures !(s.desk.execute && |eaten| > 0) ==>
              var dec := Decide(s, v, ReconciledDesk(s.desk, v.fills));
              && (dec.Err? ==> r == Err(dec.error))
              && (dec.Ok? ==> && r.Ok? && r.value.strategy == dec.value.strategy && r.value.signal == dec.value.signal
                              && r.value.entry == dec.value.entry && r.value.exit == dec.value.exit)
    // an aborted placement only happens live, on an order the venue did not answer
    ensures r == Err(UnansweredLiveOrder) ==>
              s.desk.execute && (v.entryReply.NoReply? || v.exitReply.NoReply?)
    ensures r.Ok? ==> StrategyInvariant(r.value.strategy)
    ensures r.Ok? ==>
              && r.value.strategy.tracker == s.tracker && r.value.strategy.baseVolume == s.baseVolume
              && DeskInvariant(r.value.reconciled)
              && EphemeralPosition(r.value.reconciled.orders).Ok?
              && Obs.Tick(s.observer, v.midpoint) == Ok(Obs.Observed(r.value.strategy.observer, r.value.signal))
    ensures r.Ok? ==>
              var d1 := r.value.reconciled;
              var pos1 := EphemeralPosition(d1.orders).value;
              && (r.value.entry.Some? <==> r.value.signal == Some(Obs.Bull) && MayEnter(d1, pos1))
              && (r.value.entry.Some? ==>
                    r.value.entry.value == Place(d1, MarketKind, Bid, s.baseVolume, v.midpoint, v.entryReply, v.entryId))
    ensures r.Ok? ==>
              var d2 := DeskAfterEntry(r.value.reconciled, r.value.entry);
              && DeskInvariant(d2)
              && ExitStep(s.tracker, d2, v) == Ok(r.value.exit)
              && r.value.strategy.desk ==
                   (if r.value.exit.placement.Some? then r.value.exit.placement.value.desk else d2)
  {
    var rec := Reconcile(s.desk, v.fills, current, eaten);
    if rec.Err? {
      return Err(DeskFailed(rec.error));
    }
    var d1 := rec.value.desk;
    assert d1 == ReconciledDesk(s.desk, v.fills);
    var dec := Decide(s, v, d1);
    if dec.Err? {
      assert !dec.error.DeskFailed?;
      return Err(dec.error);
    }
    r := Ok(Ticked(dec.value.strategy, rec.value.current, rec.value.eaten, d1,
                   dec.value.signal, dec.value.entry, dec.value.exit));
  }

  /** After a single filled entry of `V` at `P`, the exit is a market order at
      the midpoint exactly when the midpoint is above `P*(1+profit)`, and a
      limit order at that price otherwise. */
  lemma ExitAfterFilledEntry(t: Tracker, d: Desk, o: Order, midpoint: Money)
    requires d.orders == [o]
    requires o.mode == Bid && Filled(o) && o.volume.amount != 0.0
    requires o.price.currency == t.quote && o.volume.currency == t.stake && t.quote != t.stake
    requires o.price.amount * (1.0 + t.profitPct) != 0.0
    ensures EphemeralPosition(d.orders).Ok?
    ensures var target := o.price.amount * (1.0 + t.profitPct);
            ChooseExit(t, d, EphemeralPosition(d.orders).value, midpoint)
            == Ok(if midpoint.amount > target then MarketExitAt(midpoint) else LimitExitAt(Money(target, t.quote)))
  {
    ExitPricesAfterSingleBid(t, o);
    LifecycleOfOneBid(d, o);
    var pos := EphemeralPosition(d.orders).value;
    var target := o.price.amount * (1.0 + t.profitPct);
    assert ExitProfitPrice(t, pos, t.quote, t.stake) == Price(target);
    assert pos != map[] by { assert t.quote in pos; }
    assert Entered(d) && !Exiting(d);
    if midpoint.amount > target {
      assert ChooseExit(t, d, pos, midpoint) == Ok(MarketExitAt(midpoint));
    } else {
      assert ChooseExit(t, d, pos, midpoint) == Ok(LimitExitAt(Money(target, t.quote)));
    }
  }

  /** While the newest fill is an entry and the position is non-empty, a bull
      signal never adds a second entry. */
  lemma NoReentryWhileEntered(d: Desk, pos: Position)
    requires Entered(d) && pos != map[]
    ensures !MayEnter(d, pos)
  {
    LifecycleExclusive(d);
  }
}

=== FILE: money.dfy ===
/** Monetary amounts and the order vocabulary shared by every strategy. */
module Money {

  type Currency = string

  /** An exact amount tagged with its currency (the strategies' `Money`). */
  datatype Money = Money(amount: real, currency: Currency)

  /** Side of an order: buying the stake currency or selling it. */
  datatype Mode = Bid | Ask

  /** How the order is sent to the venue. */
  datatype Kind = MarketKind | LimitKind

  type Id = string

  /** Balances by currency, missing currencies read as absent. */
  type Balances = map<Currency, real>

}

=== FILE: observer.dfy ===
/** `MarketObserver`: feeds each midpoint into a money series, pushes every
    non-zero midpoint derivative into a bounded window, and classifies the
    window by counting signed derivatives, bull first. */
module Observer {
  import opened Wrappers
  import opened Money
  import opened TimeSeries

  datatype Trend = Bull | Bear | Undecided

  /** `midpoints` is the money series of midpoints; `window.series` holds the
      non-zero midpoint derivatives (its own `derivative` list holds the
      second-order changes the source also computes). */
  datatype Observer = Observer(
    bullPeriods: nat, bullTrend: int,
    bearPeriods: nat, bearTrend: int,
    midpoints: MoneyTS,
    window: TS)

  datatype ObserverError =
    | SeriesRefused(e: SeriesError)  // an append raised
    | LockstepBroken                 // the length assertion after trimming fails

  /** The state after one tick and the trend reported, `None` when no
      derivative was evaluated (first sample, or a zero derivative). */
  datatype Observed = Observed(obs: Observer, signal: Option<Trend>)

  /** The midpoint series is created in EUR whatever the quote currency. */
  const MidpointCurrency: Currency := "EUR"

  function Initial(bullPeriods: nat, bullTrend: int, bearPeriods: nat, bearTrend: int): Observer {
    Observer(bullPeriods, bullTrend, bearPeriods, bearTrend, MoneyTS(MidpointCurrency, Empty), Empty)
  }

  function MaxPeriods(obs: Observer): nat {
    if obs.bearPeriods >= obs.bullPeriods then obs.bearPeriods else obs.bullPeriods
  }

  /** Number of strictly positive values. */
  function CountPositive(s: seq<real>): (r: nat)
    ensures r <= |s|
  {
    if |s| == 0 then 0
    else CountPositive(s[..|s| - 1]) + (if s[|s| - 1] > 0.0 then 1 else 0)
  }

  /** Number of strictly negative values. */
  function CountNegative(s: seq<real>): (r: nat)
    ensures r <= |s|
  {
    if |s| == 0 then 0
    else CountNegative(s[..|s| - 1]) + (if s[|s| - 1] < 0.0 then 1 else 0)
  }

  /** The positive count is the number of positions holding a positive value. */
  lemma {:induction false} CountPositiveIsCardinality(s: seq<real>)
    ensures CountPositive(s) == |set i | 0 <= i < |s| && s[i] > 0.0|
    decreases |s|
  {
    if |s| > 0 {
      var n := |s| - 1;
      CountPositiveIsCardinality(s[..n]);
      var before := set i | 0 <= i < n && s[..n][i] > 0.0;
      var older := set i | 0 <= i < n && s[i] > 0.0;
      assert before == older;
      var all := set i | 0 <= i < |s| && s[i] > 0.0;
      if s[n] > 0.0 {
        assert all == older + {n};
        assert n !in older;
      } else {
        assert all == older;
      }
    }
  }

  /** The negative count is the number of positions holding a negative
      value; zeros are counted by neither. */
  lemma {:induction false} CountNegativeIsCardinality(s: seq<real>)
    ensures CountNegative(s) == |set i | 0 <= i < |s| && s[i] < 0.0|
    decreases |s|
  {
    if |s| > 0 {
      var n := |s| - 1;
      CountNegativeIsCardinality(s[..n]);
      var before := set i | 0 <= i < n && s[..n][i] < 0.0;
      var older := set i | 0 <= i < n && s[i] < 0.0;
      assert before == older;
      var all := set i | 0 <= i < |s| && s[i] < 0.0;
      if s[n] < 0.0 {
        assert all == older + {n};
        assert n !in older;
      } else {
        assert all == older;
      }
    }
  }

  /** Bull is checked first; neither threshold met means undecided. */
  function Classify(obs: Observer, w: seq<real>): (r: Trend)
    ensures r == Bull <==> CountPositive(w) >= obs.bullTrend
    ensures r == Bear <==> CountPositive(w) < obs.bullTrend && CountNegative(w) >= obs.bearTrend
  {
    if CountPositive(w) >= obs.bullTrend then Bull
    else if CountNegative(w) >= obs.bearTrend then Bear
    else Undecided
  }

  /** What every observer between ticks satisfies once the window is bounded. */
  predicate ObserverInvariant(obs: Observer) {
    && Valid(obs.midpoints.ts)
    && Valid(obs.window)
    && |obs.window.series| <= MaxPeriods(obs)
    && (|obs.midpoints.ts.series| == 0 ==> |obs.window.series| == 0)
    && (|obs.midpoints.ts.series| > 0 ==> |obs.window.series| < |obs.midpoints.ts.series|)
  }

  /** The part of a tick shared by both trimming rules: append the midpoint
      and, when its derivative is non-zero, append that to the window. */
  datatype Grown = Quiet(mids: MoneyTS) | Grew(mids: MoneyTS, w: TS)

  /** `deriv(last=1)` right after an append is the derivative that append recorded. */
  lemma NewestDerivative(ts: TS, x: real)
    requires Valid(ts) && Append(ts, Some(x)).Ok?
    ensures |ts.series| == 0 ==> Deriv(Append(ts, Some(x)).value, 1).None?
    ensures |ts.series| > 0 ==>
              Deriv(Append(ts, Some(x)).value, 1) == Some(SymmetricChange(ts.series[|ts.series| - 1], x))
  {
    if |ts.series| > 0 {
      DerivOneAfterAppend(ts, x);
    }
  }

  /** The midpoint moved since the previous tick, so `md` is truthy. */
  predicate Moved(obs: Observer, midpoint: Money) {
    |obs.midpoints.ts.series| > 0 && obs.midpoints.ts.series[|obs.midpoints.ts.series| - 1] != midpoint.amount
  }

  /** Append the midpoint; when it moved, append its derivative to the window. */
  function Grow(obs: Observer, midpoint: Money): (r: Result<Grown, ObserverError>)
    requires Valid(obs.midpoints.ts)
    ensures r.Err? ==> r.error.SeriesRefused?
    ensures AppendMoney(obs.midpoints, Some(Cash(midpoint))).Err? ==> r.Err?
    ensures (AppendMoney(obs.midpoints, Some(Cash(midpoint))).Ok? && !Moved(obs, midpoint))
            ==> r.Ok? && r.value.Quiet?
    ensures (AppendMoney(obs.midpoints, Some(Cash(midpoint))).Ok? && Moved(obs, midpoint)) ==>
              var prev := obs.midpoints.ts.series[|obs.midpoints.ts.series| - 1];
              && prev + midpoint.amount != 0.0
              && (r.Ok? <==> Append(obs.window, Some(SymmetricChange(prev, midpoint.amount))).Ok?)
              && (r.Ok? ==> r.value.Grew?)
    ensures r.Ok? ==> AppendMoney(obs.midpoints, Some(Cash(midpoint))) == Ok(r.value.mids)
    ensures r.Ok? && r.value.Quiet? <==>
              AppendMoney(obs.midpoints, Some(Cash(midpoint))).Ok?
              && (|obs.midpoints.ts.series| == 0
                  || midpoint.amount == obs.midpoints.ts.series[|obs.midpoints.ts.series| - 1])
    ensures r.Ok? && r.value.Grew? ==>
              var prev := obs.midpoints.ts.series[|obs.midpoints.ts.series| - 1];
              && |obs.midpoints.ts.series| > 0
              && prev + midpoint.amount != 0.0
              && prev != midpoint.amount
              && Append(obs.window, Some(SymmetricChange(prev, midpoint.amount))) == Ok(r.value.w)
  {
    match AppendMoney(obs.midpoints, Some(Cash(midpoint)))
    case Err(e) => Err(SeriesRefused(e))
    case Ok(mids) =>
      NewestDerivative(obs.midpoints.ts, midpoint.amount);
      var md := Deriv(mids.ts, 1);
      if md.None? || md.value == 0.0 then Ok(Quiet(mids))
      else
        match Append(obs.window, md)
        case Err(e) => Err(SeriesRefused(e))
        case Ok(w) => Ok(Grew(mids, w))
  }

  /** The source's trim: both series lose the window's excess over the
      longest period, then their lengths are asserted to be in lockstep. */
  function TrimAsWritten(obs: Observer, mids: MoneyTS, w: TS): (r: Result<Observer, ObserverError>)
    ensures r.Err? ==> r.error == LockstepBroken && |w.series| > MaxPeriods(obs)
    ensures r.Err? && |w.series| <= |mids.ts.series| ==> |mids.ts.series| != |w.series| + 1
    ensures r.Err? <==> |w.series| > MaxPeriods(obs) && |mids.ts.series| != |w.series| + 1
    ensures r.Ok? && |w.series| <= MaxPeriods(obs) ==> r.value == obs.(midpoints := mids, window := w)
    ensures r.Ok? && |w.series| > MaxPeriods(obs) ==>
              && |r.value.window.series| == MaxPeriods(obs)
              && |r.value.midpoints.ts.series| == MaxPeriods(obs) + 1
              && |mids.ts.series| - |r.value.midpoints.ts.series| == |w.series| - MaxPeriods(obs)
              && r.value.window.series == w.series[|w.series| - MaxPeriods(obs)..]
              && r.value.midpoints.ts.series == mids.ts.series[|w.series| - MaxPeriods(obs)..]
              && r.value == obs.(midpoints := mids.(ts := r.value.midpoints.ts), window := r.value.window)
  {
    var maxP := MaxPeriods(obs);
    if |w.series| > maxP then
      var dropBy := |w.series| - maxP;
      var w' := DropFirst(w, dropBy);
      var mids' := mids.(ts := DropFirst(mids.ts, dropBy));
      if |mids'.ts.series| != |w'.series| + 1 then Err(LockstepBroken)
      else Ok(obs.(midpoints := mids', window := w'))
    else Ok(obs.(midpoints := mids, window := w))
  }

  /** `MarketObserver.tick` as written: counts are taken before trimming,
      then `TrimAsWritten`. */
  function TickAsWritten(obs: Observer, midpoint: Money): (r: Result<Observed, ObserverError>)
    requires Valid(obs.midpoints.ts)
    ensures r == Err(LockstepBroken) ==>
              |obs.midpoints.ts.series| != |obs.window.series| + 1
  {
    match Grow(obs, midpoint)
    case Err(e) => Err(e)
    case Ok(Quiet(mids)) => Ok(Observed(obs.(midpoints := mids), None))
    case Ok(Grew(mids, w)) =>
      AppendKeepsValid(obs.midpoints.ts, Some(midpoint.amount));
      match TrimAsWritten(obs, mids, w)
      case Err(e) => Err(e)
      case Ok(obs') => Ok(Observed(obs', Some(Classify(obs, w.series))))
  }

  /** When the midpoints are exactly one ahead of the window, the source's
      trim and the lockstep trim agree. */
  lemma TrimsAgreeInLockstep(obs: Observer, mids: MoneyTS, w: TS)
    requires Valid(mids.ts) && Valid(w)
    requires |mids.ts.series| == |w.series| + 1
    ensures TrimAsWritten(obs, mids, w) == Ok(TrimBoth(obs, mids, w))
  {
    var maxP := MaxPeriods(obs);
    if |w.series| > maxP {
      assert |mids.ts.series| - (maxP + 1) == |w.series| - maxP;
    }
  }

  /** The trim the lockstep assertion expects: the window loses its excess
      over the longest period and the midpoints keep one more entry than the
      window. */
  function TrimBoth(obs: Observer, mids: MoneyTS, w: TS): (r: Observer)
    requires Valid(mids.ts) && Valid(w)
    requires |w.series| < |mids.ts.series|
    ensures r == obs.(midpoints := r.midpoints, window := r.window)
    ensures r.midpoints.currency == mids.currency
    ensures Valid(r.midpoints.ts) && Valid(r.window)
    ensures |r.window.series| == (if |w.series| > MaxPeriods(obs) then MaxPeriods(obs) else |w.series|)
    ensures r.window.series == w.series[|w.series| - |r.window.series|..]
    ensures |r.window.series| < |r.midpoints.ts.series|
    ensures |w.series| > MaxPeriods(obs) ==> |r.midpoints.ts.series| == |r.window.series| + 1
    ensures Last(r.midpoints.ts) == Last(mids.ts)
  {
    var maxP := MaxPeriods(obs);
    if |w.series| > maxP then
      var w' := DropFirst(w, |w.series| - maxP);
      var mids' := mids.(ts := DropFirst(mids.ts, |mids.ts.series| - (maxP + 1)));
      obs.(midpoints := mids', window := w')
    else obs.(midpoints := mids, window := w)
  }

  /** The tick with the trim the lockstep assertion expects, so skipped zero
      derivatives cannot break the length relation. */
  function Tick(obs: Observer, midpoint: Money): (r: Result<Observed, ObserverError>)
    requires ObserverInvariant(obs)
    ensures r.Err? ==> r.error.SeriesRefused?
    ensures r.Ok? <==> Grow(obs, midpoint).Ok?
    ensures r.Ok? ==> (r.value.signal.Some? <==> Moved(obs, midpoint))
    ensures r.Ok? ==> ObserverInvariant(r.value.obs)
    ensures r.Ok? ==> Last(r.value.obs.midpoints.ts) == Some(midpoint.amount)
                      && r.value.obs.midpoints.currency == obs.midpoints.currency
    ensures r.Ok? ==> r.value.obs.(midpoints := obs.midpoints, window := obs.window) == obs
    ensures r.Ok? && r.value.signal.None? ==> r.value.obs.window == obs.window
    ensures r.Ok? && r.value.signal.Some? ==> |obs.midpoints.ts.series| > 0
    ensures r.Ok? && r.value.signal.Some? ==>
              && obs.midpoints.ts.series[|obs.midpoints.ts.series| - 1] != midpoint.amount
              && Counted(obs, r.value)
  {
    match Grow(obs, midpoint)
    case Err(e) => Err(e)
    case Ok(Quiet(mids)) =>
      QuietKeepsInvariant(obs, midpoint, mids);
      Ok(Observed(obs.(midpoints := mids), None))
    case Ok(Grew(mids, w)) =>
      GrewIsCounted(obs, midpoint, mids, w);
      Ok(Observed(TrimBoth(obs, mids, w), Some(Classify(obs, w.series))))
  }

  lemma QuietKeepsInvariant(obs: Observer, midpoint: Money, mids: MoneyTS)
    requires ObserverInvariant(obs)
    requires Grow(obs, midpoint) == Ok(Quiet(mids))
    ensures ObserverInvariant(obs.(midpoints := mids))
    ensures Last(mids.ts) == Some(midpoint.amount) && mids.currency == obs.midpoints.currency
  {
    AppendKeepsValid(obs.midpoints.ts, Some(midpoint.amount));
    LastOfAppend(obs.midpoints.ts, Some(midpoint.amount));
  }

  lemma GrewIsCounted(obs: Observer, midpoint: Money, mids: MoneyTS, w: TS)
    requires ObserverInvariant(obs)
    requires Grow(obs, midpoint) == Ok(Grew(mids, w))
    ensures Valid(mids.ts) && Valid(w) && |w.series| < |mids.ts.series| && |obs.midpoints.ts.series| > 0
    ensures Counted(obs, Observed(TrimBoth(obs, mids, w), Some(Classify(obs, w.series))))
    ensures ObserverInvariant(TrimBoth(obs, mids, w))
    ensures Last(TrimBoth(obs, mids, w).midpoints.ts) == Some(midpoint.amount)
    ensures TrimBoth(obs, mids, w).midpoints.currency == obs.midpoints.currency
    ensures obs.midpoints.ts.series[|obs.midpoints.ts.series| - 1] != midpoint.amount
  {
    GrewShape(obs, midpoint, mids, w);
    var prev := obs.midpoints.ts.series[|obs.midpoints.ts.series| - 1];
    TrimmedIsCounted(obs, prev, midpoint.amount, mids, w);
  }

  /** The lengths and contents a growing tick produces. */
  lemma GrewShape(obs: Observer, midpoint: Money, mids: MoneyTS, w: TS)
    requires ObserverInvariant(obs)
    requires Grow(obs, midpoint) == Ok(Grew(mids, w))
    ensures |obs.midpoints.ts.series| > 0
    ensures var prev := obs.midpoints.ts.series[|obs.midpoints.ts.series| - 1];
            && prev + midpoint.amount != 0.0 && prev != midpoint.amount
            && w.series == obs.window.series + [SymmetricChange(prev, midpoint.amount)]
    ensures Valid(mids.ts) && Valid(w) && |w.series| < |mids.ts.series|
    ensures |w.series| <= MaxPeriods(obs) + 1
    ensures Last(mids.ts) == Some(midpoint.amount) && mids.currency == obs.midpoints.currency
  {
    AppendKeepsValid(obs.midpoints.ts, Some(midpoint.amount));
    LastOfAppend(obs.midpoints.ts, Some(midpoint.amount));
    var prev := obs.midpoints.ts.series[|obs.midpoints.ts.series| - 1];
    AppendKeepsValid(obs.window, Some(SymmetricChange(prev, midpoint.amount)));
  }

  lemma TrimmedIsCounted(obs: Observer, prev: real, x: real, mids: MoneyTS, w: TS)
    requires ObserverInvariant(obs) && |obs.midpoints.ts.series| > 0
    requires prev == obs.midpoints.ts.series[|obs.midpoints.ts.series| - 1] && prev + x != 0.0
    requires w.series == obs.window.series + [SymmetricChange(prev, x)]
    requires Valid(mids.ts) && Valid(w) && |w.series| < |mids.ts.series|
    requires Last(mids.ts) == Some(x) && mids.currency == obs.midpoints.currency
    requires |w.series| <= MaxPeriods(obs) + 1
    ensures Counted(obs, Observed(TrimBoth(obs, mids, w), Some(Classify(obs, w.series))))
    ensures ObserverInvariant(TrimBoth(obs, mids, w))
    ensures Last(TrimBoth(obs, mids, w).midpoints.ts) == Some(x)
    ensures TrimBoth(obs, mids, w).midpoints.currency == obs.midpoints.currency
  {
    TrimKeepsNewest(obs, mids, w);
    var t := TrimBoth(obs, mids, w);
    CountedIntro(obs, Observed(t, Some(Classify(obs, w.series))), prev, x, w.series);
  }

  /** `Counted` from its parts, with the newest midpoint `x` and the counted
      window named. */
  lemma CountedIntro(obs: Observer, r: Observed, prev: real, x: real, counted: seq<real>)
    requires |obs.midpoints.ts.series| > 0 && prev == obs.midpoints.ts.series[|obs.midpoints.ts.series| - 1]
    requires Last(r.obs.midpoints.ts) == Some(x) && prev + x != 0.0
    requires counted == obs.window.series + [SymmetricChange(prev, x)]
    requires r.signal == Some(Classify(obs, counted))
    requires |r.obs.window.series| == (if |counted| > MaxPeriods(obs) then MaxPeriods(obs) else |counted|)
    requires r.obs.window.series == counted[|counted| - |r.obs.window.series|..]
    requires |counted| > MaxPeriods(obs) ==> |r.obs.midpoints.ts.series| == |r.obs.window.series| + 1
    ensures Counted(obs, r)
  {
    var last := r.obs.midpoints.ts.series;
    assert |last| > 0 && last[|last| - 1] == x;
  }

  lemma TrimKeepsNewest(obs: Observer, mids: MoneyTS, w: TS)
    requires Valid(mids.ts) && Valid(w) && |w.series| < |mids.ts.series|
    requires |w.series| <= MaxPeriods(obs) + 1
    ensures ObserverInvariant(TrimBoth(obs, mids, w))
    ensures Last(TrimBoth(obs, mids, w).midpoints.ts) == Last(mids.ts)
  {
  }

  /** The trend of a tick that evaluated a derivative `d`: classified on the
      window with `d` appended, before trimming (so up to one more entry than
      the longest period), and the window afterwards is the newest part of it. */
  ghost predicate Counted(obs: Observer, r: Observed)
    requires |obs.midpoints.ts.series| > 0
  {
    var prev := obs.midpoints.ts.series[|obs.midpoints.ts.series| - 1];
    var last := r.obs.midpoints.ts.series;
    && |last| > 0
    && prev + last[|last| - 1] != 0.0
    && var counted := obs.window.series + [SymmetricChange(prev, last[|last| - 1])];
       && r.signal == Some(Classify(obs, counted))
       && |r.obs.window.series| == (if |counted| > MaxPeriods(obs) then MaxPeriods(obs) else |counted|)
       && r.obs.window.series == counted[|counted| - |r.obs.window.series|..]
       && (|counted| > MaxPeriods(obs) ==> |last| == |r.obs.window.series| + 1)
  }

  /** Midpoints and window advance together: no zero derivative has been skipped. */
  predicate Lockstep(obs: Observer) {
    |obs.midpoints.ts.series| == |obs.window.series| + 1
    || (|obs.midpoints.ts.series| == 0 && |obs.window.series| == 0)
  }

  /** While no zero derivative has been skipped the source's tick and the
      trimmed tick coincide; the assertion can only fail after a skip. */
  lemma AsWrittenAgreesInLockstep(obs: Observer, midpoint: Money)
    requires ObserverInvariant(obs) && Lockstep(obs)
    ensures TickAsWritten(obs, midpoint) == Tick(obs, midpoint)
  {
    match Grow(obs, midpoint)
    case Err(e) =>
    case Ok(Quiet(mids)) =>
    case Ok(Grew(mids, w)) =>
      AppendKeepsValid(obs.midpoints.ts, Some(midpoint.amount));
      assert |mids.ts.series| == |obs.midpoints.ts.series| + 1;
      assert |w.series| == |obs.window.series| + 1;
      assert |mids.ts.series| == |w.series| + 1;
      TrimsAgreeInLockstep(obs, mids, w);
  }

  /** Feeding `ms` tick by tick into the source's observer; the trends are dropped. */
  function RunAsWritten(obs: Observer, ms: seq<real>): Result<Observer, ObserverError>
    requires Valid(obs.midpoints.ts)
    decreases |ms|
  {
    if |ms| == 0 then Ok(obs)
    else
      match TickAsWritten(obs, Money(ms[0], MidpointCurrency))
      case Err(e) => Err(e)
      case Ok(r) =>
        if Valid(r.obs.midpoints.ts) then RunAsWritten(r.obs, ms[1..]) else Ok(r.obs)
  }

  lemma FirstTick(obs: Observer)
    requires obs.midpoints == MoneyTS(MidpointCurrency, Empty)
    ensures TickAsWritten(obs, Money(100.0, MidpointCurrency))
            == Ok(Observed(obs.(midpoints := MoneyTS(MidpointCurrency, TS([100.0], []))), None))
  {
    NewestDerivative(Empty, 100.0);
    assert AppendMoney(obs.midpoints, Some(Cash(Money(100.0, MidpointCurrency))))
           == Ok(MoneyTS(MidpointCurrency, TS([100.0], [])));
  }

  lemma RepeatedTick(obs: Observer)
    requires obs.midpoints == MoneyTS(MidpointCurrency, TS([100.0], []))
    ensures TickAsWritten(obs, Money(100.0, MidpointCurrency))
            == Ok(Observed(obs.(midpoints := MoneyTS(MidpointCurrency, TS([100.0, 100.0], [0.0]))), None))
  {
    var eur := MidpointCurrency;
    var m2 := MoneyTS(eur, TS([100.0, 100.0], [0.0]));
    assert SymmetricChange(100.0, 100.0) == 0.0;
    assert [100.0] + [100.0] == [100.0, 100.0];
    assert AppendMoney(obs.midpoints, Some(Cash(Money(100.0, eur)))) == Ok(m2);
    NewestDerivative(TS([100.0], []), 100.0);
    assert Deriv(m2.ts, 1) == Some(0.0);
    assert Grow(obs, Money(100.0, eur)) == Ok(Quiet(m2));
  }

  lemma GrowsTo120(d3: real, d4: real, m3: MoneyTS, m4: MoneyTS)
    requires d3 == SymmetricChange(100.0, 110.0) && d4 == SymmetricChange(110.0, 120.0)
    requires m3 == MoneyTS(MidpointCurrency, TS([100.0, 100.0, 110.0], [0.0, d3]))
    requires m4 == MoneyTS(MidpointCurrency, TS([100.0, 100.0, 110.0, 120.0], [0.0, d3, d4]))
    ensures d3 > 0.0 && d4 > 0.0
    ensures AppendMoney(m3, Some(Cash(Money(120.0, MidpointCurrency)))) == Ok(m4)
    ensures Append(TS([d3], []), Some(d4)) == Ok(TS([d3, d4], [SymmetricChange(d3, d4)]))
  {
    assert d3 == 20.0 / 210.0;
    assert d4 == 20.0 / 230.0;
    assert [100.0, 100.0, 110.0] + [120.0] == [100.0, 100.0, 110.0, 120.0];
    assert [0.0, d3] + [d4] == [0.0, d3, d4];
    assert [d3] + [d4] == [d3, d4];
  }

  lemma ThirdTick(o2: Observer)
    requires o2 == Initial(1, 1, 1, 1).(midpoints := MoneyTS(MidpointCurrency, TS([100.0, 100.0], [0.0])))
    ensures var d3 := SymmetricChange(100.0, 110.0);
            TickAsWritten(o2, Money(110.0, MidpointCurrency))
            == Ok(Observed(o2.(midpoints := MoneyTS(MidpointCurrency, TS([100.0, 100.0, 110.0], [0.0, d3])),
                               window := TS([d3], [])),
                           Some(Classify(o2, [d3]))))
  {
    var eur := MidpointCurrency;
    var d3 := SymmetricChange(100.0, 110.0);
    var m3 := MoneyTS(eur, TS([100.0, 100.0, 110.0], [0.0, d3]));
    NewestDerivative(o2.midpoints.ts, 110.0);
    assert d3 == 20.0 / 210.0;
    assert [100.0, 100.0] + [110.0] == [100.0, 100.0, 110.0];
    assert [0.0] + [d3] == [0.0, d3];
    assert Append(o2.midpoints.ts, Some(110.0)) == Ok(m3.ts);
    assert AppendMoney(o2.midpoints, Some(Cash(Money(110.0, eur)))) == Ok(m3);
    assert Deriv(m3.ts, 1) == Some(d3);
    assert Append(Empty, Some(d3)) == Ok(TS([d3], []));
    assert Grow(o2, Money(110.0, eur)) == Ok(Grew(m3, TS([d3], [])));
  }

  lemma FourthTickFails(o3: Observer)
    requires var d3 := SymmetricChange(100.0, 110.0);
             o3 == Initial(1, 1, 1, 1).(midpoints := MoneyTS(MidpointCurrency, TS([100.0, 100.0, 110.0], [0.0, d3])),
                                        window := TS([d3], []))
    ensures TickAsWritten(o3, Money(120.0, MidpointCurrency)) == Err(LockstepBroken)
  {
    var eur := MidpointCurrency;
    var d3 := SymmetricChange(100.0, 110.0);
    var d4 := SymmetricChange(110.0, 120.0);
    var m4 := MoneyTS(eur, TS([100.0, 100.0, 110.0, 120.0], [0.0, d3, d4]));
    NewestDerivative(o3.midpoints.ts, 120.0);
    GrowsTo120(d3, d4, o3.midpoints, m4);
    assert Grow(o3, Money(120.0, eur)) == Ok(Grew(m4, TS([d3, d4], [SymmetricChange(d3, d4)])));
    assert TrimAsWritten(o3, m4, TS([d3, d4], [SymmetricChange(d3, d4)])) == Err(LockstepBroken);
  }

  /** Midpoints 100, 100, 110, 120 with both periods 1: the repeated 100 gives
      a zero derivative that is kept out of the window but not out of the
      midpoints, so the source's fourth tick fails its lockstep assertion. */
  lemma LockstepFailsAfterZeroDerivative()
    ensures RunAsWritten(Initial(1, 1, 1, 1), [100.0, 100.0, 110.0, 120.0]) == Err(LockstepBroken)
  {
    var eur := MidpointCurrency;
    var o0 := Initial(1, 1, 1, 1);
    FirstTick(o0);
    var o1 := o0.(midpoints := MoneyTS(eur, TS([100.0], [])));
    RepeatedTick(o1);
    var o2 := o1.(midpoints := MoneyTS(eur, TS([100.0, 100.0], [0.0])));
    ThirdTick(o2);
    var d3 := SymmetricChange(100.0, 110.0);
    var o3 := o2.(midpoints := MoneyTS(eur, TS([100.0, 100.0, 110.0], [0.0, d3])), window := TS([d3], []));
    FourthTickFails(o3);
    RunStep(o0, [100.0, 100.0, 110.0, 120.0], Observed(o1, None));
    RunStep(o1, [100.0, 110.0, 120.0], Observed(o1.(midpoints := o2.midpoints), None));
    RunStep(o2, [110.0, 120.0], Observed(o3, Some(Classify(o2, [d3]))));
    assert [100.0, 100.0, 110.0, 120.0][1..] == [100.0, 110.0, 120.0];
    assert [100.0, 110.0, 120.0][1..] == [110.0, 120.0];
    assert [110.0, 120.0][1..] == [120.0];
  }

  /** One step of `RunAsWritten` whose tick succeeds. */
  lemma RunStep(obs: Observer, ms: seq<real>, r: Observed)
    requires Valid(obs.midpoints.ts) && |ms| > 0
    requires TickAsWritten(obs, Money(ms[0], MidpointCurrency)) == Ok(r)
    requires Valid(r.obs.midpoints.ts)
    ensures RunAsWritten(obs, ms) == RunAsWritten(r.obs, ms[1..])
  {
  }

  /** The lockstep tick on the same midpoints keeps the relation and reports
      a bull trend on the last two ticks. */
  lemma LockstepTrimKeepsRelation()
    ensures var o := Initial(1, 1, 1, 1);
            var eur := MidpointCurrency;
            var o3 := o.(midpoints := MoneyTS(eur, TS([100.0, 100.0, 110.0], [0.0, SymmetricChange(100.0, 110.0)])),
                         window := TS([SymmetricChange(100.0, 110.0)], []));
            && ObserverInvariant(o3)
            && Tick(o3, Money(120.0, eur)).Ok?
            && Tick(o3, Money(120.0, eur)).value.signal == Some(Bull)
            && |Tick(o3, Money(120.0, eur)).value.obs.midpoints.ts.series| == 2
  {
    var o := Initial(1, 1, 1, 1);
    var eur := MidpointCurrency;
    var d3 := SymmetricChange(100.0, 110.0);
    var m3 := MoneyTS(eur, TS([100.0, 100.0, 110.0], [0.0, d3]));
    var o3 := o.(midpoints := m3, window := TS([d3], []));
    var d4 := SymmetricChange(110.0, 120.0);
    var m4 := MoneyTS(eur, TS([100.0, 100.0, 110.0, 120.0], [0.0, d3, d4]));
    NewestDerivative(m3.ts, 120.0);
    GrowsTo120(d3, d4, m3, m4);
    assert Grow(o3, Money(120.0, eur)) == Ok(Grew(m4, TS([d3, d4], [SymmetricChange(d3, d4)])));
    assert CountPositive([d3, d4]) == 2 by {
      assert [d3][..0] == [];
      assert CountPositive([d3]) == 1;
      assert [d3, d4][..1] == [d3];
    }
  }
}

=== FILE: orders.dfy ===
/** `Order`, `MarketOrder` and `LimitOrder`: one order with partial-fill
    tracking. The two subclasses differ only in their kind tag. */
module Orders {
  import opened Money

  datatype Order = Order(
    kind: Kind,
    mode: Mode,
    id: Id,
    price: Money,
    volume: Money,
    volumeFilled: Money)

  /** A freshly constructed order: nothing filled yet, in the volume's currency. */
  function NewOrder(kind: Kind, mode: Mode, id: Id, price: Money, volume: Money): Order {
    Order(kind, mode, id, price, volume, Money(0.0, volume.currency))
  }

  /** `filled`: the filled volume equals the requested volume. */
  predicate Filled(o: Order) {
    o.volume == o.volumeFilled
  }

  /** The filled volume is in the order's currency and between zero and the volume. */
  predicate WellFormed(o: Order) {
    && o.volumeFilled.currency == o.volume.currency
    && 0.0 <= o.volumeFilled.amount <= o.volume.amount
  }

  function Min(a: real, b: real): real {
    if a <= b then a else b
  }

  datatype FillResult = FillResult(order: Order, returned: real)

  /** `fill(volume)`: absorb as much of `v` as the order still lacks. The
      returned number is computed after the update, as in the source. */
  function Fill(o: Order, v: real): (r: FillResult)
    ensures r.order == o.(volumeFilled := r.order.volumeFilled)
    ensures r.order.volumeFilled.currency == o.volumeFilled.currency
    ensures WellFormed(o) && v >= 0.0 ==>
              && WellFormed(r.order)
              && o.volumeFilled.amount <= r.order.volumeFilled.amount
              && (Filled(r.order) <==> v >= o.volume.amount - o.volumeFilled.amount)
              && 0.0 <= r.returned <= v
              && (Filled(r.order) ==> r.returned == v)
    ensures WellFormed(o) && v >= 0.0 && !Filled(r.order) ==>
              r.order.volumeFilled.amount == o.volumeFilled.amount + v
  {
    var filled := o.volumeFilled.amount + Min(o.volume.amount - o.volumeFilled.amount, v);
    var o' := o.(volumeFilled := Money(filled, o.volumeFilled.currency));
    FillResult(o', v - Min(o.volume.amount - filled, v))
  }

  /** `fill(o.volume)`, as the dry-run simulator calls it, always completes the order. */
  lemma FillWholeVolumeCompletes(o: Order)
    requires WellFormed(o)
    ensures Filled(Fill(o, o.volume.amount).order)
    ensures WellFormed(Fill(o, o.volume.amount).order)
  {
  }

  /** A new order with a positive volume is well formed and not filled. */
  lemma NewOrderIsOpen(kind: Kind, mode: Mode, id: Id, price: Money, volume: Money)
    requires volume.amount > 0.0
    ensures WellFormed(NewOrder(kind, mode, id, price, volume))
    ensures !Filled(NewOrder(kind, mode, id, price, volume))
  {
  }
}

=== FILE: timeseries.dfy ===
/** The append-only sample buffer `TS` and its currency-checked variant
    `LocalMoneyTS`: every sample after the first also records the symmetric
    change `2*(b-a)/(a+b)` from the previous sample. Timestamps are not kept,
    since no decision reads them. */
module TimeSeries {
  import opened Wrappers
  import opened Money

  /** Why an append is refused (the source raises in each case). */
  datatype SeriesError =
    | NoneSample        // `assert other is not None`
    | NotMoney          // a money series given something that is not Money
    | CurrencyMismatch  // a money series given Money of another currency
    | DivisionByZero    // the new sample and the previous one sum to zero

  /** Samples, oldest first, and the derivatives between consecutive samples. */
  datatype TS = TS(series: seq<real>, derivative: seq<real>)

  const Empty: TS := TS([], [])

  /** One derivative per consecutive pair of samples. */
  predicate Valid(ts: TS) {
    if |ts.series| == 0 then |ts.derivative| == 0
    else |ts.derivative| == |ts.series| - 1
  }

  /** The symmetric relative change from `a` to `b`. */
  function SymmetricChange(a: real, b: real): real
    requires a + b != 0.0
  {
    2.0 * (b - a) / (a + b)
  }

  function Sum(s: seq<real>): real {
    if |s| == 0 then 0.0 else Sum(s[..|s| - 1]) + s[|s| - 1]
  }

  /** `ts + value`: store the sample, and its derivative when a previous sample exists. */
  function Append(ts: TS, v: Option<real>): (r: Result<TS, SeriesError>)
    ensures r.Err? <==>
              v.None? || (|ts.series| > 0 && ts.series[|ts.series| - 1] + v.value == 0.0)
    ensures v.None? ==> r == Err(NoneSample)
    ensures r.Ok? ==> r.value.series == ts.series + [v.value]
    ensures r.Ok? && |ts.series| == 0 ==> r.value.derivative == ts.derivative
    ensures r.Ok? && |ts.series| > 0 ==>
              var prev := ts.series[|ts.series| - 1];
              var d := r.value.derivative;
              && |d| == |ts.derivative| + 1
              && d[..|ts.derivative|] == ts.derivative
              && d[|ts.derivative|] * (prev + v.value) == 2.0 * (v.value - prev)
  {
    match v
    case None => Err(NoneSample)
    case Some(x) =>
      if |ts.series| == 0 then Ok(TS([x], ts.derivative))
      else
        var prev := ts.series[|ts.series| - 1];
        if prev + x == 0.0 then Err(DivisionByZero)
        else Ok(TS(ts.series + [x], ts.derivative + [SymmetricChange(prev, x)]))
  }

  /** Appending every value of `vs` in order, stopping at the first refusal. */
  function AppendAll(ts: TS, vs: seq<real>): (r: Result<TS, SeriesError>)
    ensures |vs| == 0 ==> r == Ok(ts)
    ensures r.Err? ==> r.error == DivisionByZero
    decreases |vs|
  {
    if |vs| == 0 then Ok(ts)
    else
      match Append(ts, Some(vs[0]))
      case Err(e) => Err(e)
      case Ok(ts') => AppendAll(ts', vs[1..])
  }

  /** The derivative values `deriv(last)` averages: Python's `[-last:]`,
      which is the whole list for `last == 0` and for `last` beyond its length. */
  function DerivWindow(ts: TS, last: nat): (w: seq<real>)
    ensures |ts.derivative| > 0 ==> |w| > 0
    ensures last == 0 || last >= |ts.derivative| ==> w == ts.derivative
    ensures 0 < last <= |ts.derivative| ==> w == ts.derivative[|ts.derivative| - last..]
  {
    if last == 0 || last >= |ts.derivative| then ts.derivative
    else ts.derivative[|ts.derivative| - last..]
  }

  /** `deriv(last)`: the mean of the newest `last` derivatives, `None` when there are none. */
  function Deriv(ts: TS, last: nat): (r: Option<real>)
    ensures r.None? <==> |ts.derivative| == 0
    ensures r.Some? ==> r.value * (|DerivWindow(ts, last)| as real) == Sum(DerivWindow(ts, last))
  {
    if |ts.derivative| == 0 then None
    else
      var w := DerivWindow(ts, last);
      Some(Sum(w) / (|w| as real))
  }

  /** `last()`: the newest sample; the source raises on an empty series. */
  function Last(ts: TS): (r: Option<real>)
    ensures r.None? <==> |ts.series| == 0
    ensures r.Some? ==> r.value in ts.series
    ensures r.Some? ==> r.value == ts.series[|ts.series| - 1]
  {
    if |ts.series| == 0 then None else Some(ts.series[|ts.series| - 1])
  }

  /** `dropfirst(n)`: forget the oldest `n` samples and the oldest `n` derivatives. */
  function DropFirst(ts: TS, n: nat): (r: TS)
    ensures |r.series| == if n <= |ts.series| then |ts.series| - n else 0
    ensures |r.derivative| == if n <= |ts.derivative| then |ts.derivative| - n else 0
    ensures r.series == ts.series[|ts.series| - |r.series|..]
    ensures r.derivative == ts.derivative[|ts.derivative| - |r.derivative|..]
    ensures Valid(ts) && n <= |ts.derivative| ==> Valid(r)
  {
    TS(if n <= |ts.series| then ts.series[n..] else [],
       if n <= |ts.derivative| then ts.derivative[n..] else [])
  }

  /** A successful append keeps one derivative per consecutive pair. */
  lemma AppendKeepsValid(ts: TS, v: Option<real>)
    requires Valid(ts) && Append(ts, v).Ok?
    ensures Valid(Append(ts, v).value)
  {
  }

  /** After a successful append the appended value is the newest sample. */
  lemma LastOfAppend(ts: TS, v: Option<real>)
    requires Append(ts, v).Ok?
    ensures Last(Append(ts, v).value) == v
  {
  }

  /** After an append to a non-empty series, `deriv(1)` is the new derivative. */
  lemma DerivOneAfterAppend(ts: TS, x: real)
    requires Valid(ts) && |ts.series| > 0 && Append(ts, Some(x)).Ok?
    ensures var prev := ts.series[|ts.series| - 1];
            Deriv(Append(ts, Some(x)).value, 1) == Some(SymmetricChange(prev, x))
  {
    var prev := ts.series[|ts.series| - 1];
    var t := Append(ts, Some(x)).value;
    assert DerivWindow(t, 1) == [SymmetricChange(prev, x)];
    assert Sum([SymmetricChange(prev, x)]) == SymmetricChange(prev, x) by {
      assert [SymmetricChange(prev, x)][..0] == [];
    }
  }

  /** From any valid series, appending `vs` one by one (without refusal)
      yields the old samples followed by `vs`, still valid. */
  lemma {:induction false} AppendAllKeepsValid(ts: TS, vs: seq<real>)
    requires Valid(ts) && AppendAll(ts, vs).Ok?
    ensures Valid(AppendAll(ts, vs).value)
    ensures AppendAll(ts, vs).value.series == ts.series + vs
    decreases |vs|
  {
    if |vs| > 0 {
      var ts' := Append(ts, Some(vs[0])).value;
      AppendKeepsValid(ts, Some(vs[0]));
      AppendAllKeepsValid(ts', vs[1..]);
      assert ts.series + vs == ts.series + [vs[0]] + vs[1..];
    }
  }

  /** N samples appended to an empty series give `max(0, N-1)` derivatives. */
  lemma DerivativeCount(vs: seq<real>)
    requires AppendAll(Empty, vs).Ok?
    ensures |AppendAll(Empty, vs).value.series| == |vs|
    ensures |AppendAll(Empty, vs).value.derivative| == if |vs| == 0 then 0 else |vs| - 1
  {
    AppendAllKeepsValid(Empty, vs);
  }

  lemma {:induction false} SumBounds(s: seq<real>, lo: real, hi: real)
    requires forall i :: 0 <= i < |s| ==> lo <= s[i] <= hi
    ensures (|s| as real) * lo <= Sum(s) <= (|s| as real) * hi
    decreases |s|
  {
    if |s| > 0 {
      SumBounds(s[..|s| - 1], lo, hi);
      var n := |s| as real;
      assert (n - 1.0) * lo + lo == n * lo;
      assert (n - 1.0) * hi + hi == n * hi;
    }
  }

  /** `deriv(last)` lies between the smallest and largest derivative it averages. */
  lemma DerivWithinWindow(ts: TS, last: nat, lo: real, hi: real)
    requires forall i :: 0 <= i < |DerivWindow(ts, last)| ==> lo <= DerivWindow(ts, last)[i] <= hi
    requires Deriv(ts, last).Some?
    ensures lo <= Deriv(ts, last).value <= hi
  {
    var w := DerivWindow(ts, last);
    SumBounds(w, lo, hi);
    var n := |w| as real;
    assert Deriv(ts, last).value == Sum(w) / n;
  }

  /** `LocalMoneyTS`: a series that only accepts Money of its own currency. */
  datatype MoneyTS = MoneyTS(currency: Currency, ts: TS)

  /** What can be handed to `LocalMoneyTS + value`. */
  datatype Sample = Plain(x: real) | Cash(m: Money)

  function AppendMoney(ms: MoneyTS, v: Option<Sample>): (r: Result<MoneyTS, SeriesError>)
    ensures (v.None? || v.value.Plain?) ==> r == Err(NotMoney)
    ensures v.Some? && v.value.Cash? && v.value.m.currency != ms.currency ==> r == Err(CurrencyMismatch)
    ensures r.Ok? ==> v.Some? && v.value.Cash? && v.value.m.currency == ms.currency
    ensures r.Ok? ==> r.value.currency == ms.currency
                      && Append(ms.ts, Some(v.value.m.amount)) == Ok(r.value.ts)
  {
    if v.None? || v.value.Plain? then Err(NotMoney)
    else if v.value.m.currency != ms.currency then Err(CurrencyMismatch)
    else
      match Append(ms.ts, Some(v.value.m.amount))
      case Err(e) => Err(e)
      case Ok(t) => Ok(MoneyTS(ms.currency, t))
  }
}

=== FILE: tracker.dfy ===
/** `PositionTracker`: the ledger's position seen through one stake/quote
    pair, the exit prices derived from it, and the lifecycle predicates
    `entering`, `entered`, `exiting`, `exited`. The exchange-reported
    position is only logged by the source and is not modelled. */
module Tracker {
  import opened Wrappers
  import opened Money
  import opened Venue
  import opened Orders
  import opened Desk

  datatype Tracker = Tracker(stake: Currency, quote: Currency, profitPct: real, lossPct: real)

  /** A price derived from the position: `Unavailable` when a currency is
      missing (the source returns `None`), `ZeroStake` when the stake balance
      is zero (the source's Decimal division raises). */
  datatype Reference = Unavailable | ZeroStake | Price(value: real)

  /** `-position[quote] / position[stake]`, scaled by `factor`. */
  function ScaledReference(pos: Position, quote: Currency, stake: Currency, factor: real): (r: Reference)
    ensures r.Unavailable? <==> quote !in pos || stake !in pos
    ensures r.ZeroStake? <==> quote in pos && stake in pos && pos[stake] == 0.0
    ensures r.Price? ==> r.value * pos[stake] == -pos[quote] * factor
  {
    if quote in pos && stake in pos then
      if pos[stake] == 0.0 then ZeroStake
      else Price((-pos[quote] / pos[stake]) * factor)
    else Unavailable
  }

  /** `exit_profit_price(quote, stake)`. */
  function ExitProfitPrice(t: Tracker, pos: Position, quote: Currency, stake: Currency): (r: Reference)
    ensures r.Unavailable? <==> quote !in pos || stake !in pos
    ensures r.ZeroStake? <==> quote in pos && stake in pos && pos[stake] == 0.0
    ensures r.Price? ==> r.value * pos[stake] == -pos[quote] * (1.0 + t.profitPct)
  {
    ScaledReference(pos, quote, stake, 1.0 + t.profitPct)
  }

  /** `exit_loss_price(quote, stake)`. */
  function ExitLossPrice(t: Tracker, pos: Position, quote: Currency, stake: Currency): (r: Reference)
    ensures r.Unavailable? <==> quote !in pos || stake !in pos
    ensures r.ZeroStake? <==> quote in pos && stake in pos && pos[stake] == 0.0
    ensures r.Price? ==> r.value * pos[stake] == -pos[quote] * (1.0 - t.lossPct)
  {
    ScaledReference(pos, quote, stake, 1.0 - t.lossPct)
  }

  /** After one filled BID of `V` at `P`, the reference price is exactly `P`,
      so the exit prices are `P*(1+profit)` and `P*(1-loss)`. */
  lemma ExitPricesAfterSingleBid(t: Tracker, o: Order)
    requires o.mode == Bid && Filled(o) && o.volume.amount != 0.0
    requires o.price.currency == t.quote && o.volume.currency == t.stake && t.quote != t.stake
    ensures EphemeralPosition([o]).Ok?
    ensures ExitProfitPrice(t, EphemeralPosition([o]).value, t.quote, t.stake)
            == Price(o.price.amount * (1.0 + t.profitPct))
    ensures ExitLossPrice(t, EphemeralPosition([o]).value, t.quote, t.stake)
            == Price(o.price.amount * (1.0 - t.lossPct))
  {
    SingleFilledBid(o);
    var pos := EphemeralPosition([o]).value;
    var v := o.volume.amount;
    var p := o.price.amount;
    assert -pos[t.quote] / pos[t.stake] == p by {
      assert -pos[t.quote] == v * p;
      assert (v * p) / v == p;
    }
  }

  /** With a non-negative reference price and non-negative percentages the
      profit target is never below the loss limit. */
  lemma ProfitNotBelowLoss(t: Tracker, pos: Position, quote: Currency, stake: Currency)
    requires t.profitPct >= 0.0 && t.lossPct >= 0.0
    requires ScaledReference(pos, quote, stake, 1.0).Price?
    requires ScaledReference(pos, quote, stake, 1.0).value >= 0.0
    ensures ExitProfitPrice(t, pos, quote, stake).value >= ExitLossPrice(t, pos, quote, stake).value
  {
    var p := ScaledReference(pos, quote, stake, 1.0).value;
    assert ExitProfitPrice(t, pos, quote, stake).value == p * (1.0 + t.profitPct);
    assert ExitLossPrice(t, pos, quote, stake).value == p * (1.0 - t.lossPct);
    assert p * (1.0 + t.profitPct) - p * (1.0 - t.lossPct) == p * (t.profitPct + t.lossPct);
  }

  /** `entering`: the newest unfilled order is a BID. */
  function Entering(d: Desk): (r: bool)
    ensures r <==> exists i :: && 0 <= i < |d.orders| && !Filled(d.orders[i]) && d.orders[i].mode == Bid
                               && forall j :: i < j < |d.orders| ==> Filled(d.orders[j])
  {
    LastOrderIs(d.orders, false, Bid)
  }

  /** `exiting`: the newest unfilled order is an ASK. */
  function Exiting(d: Desk): (r: bool)
    ensures r <==> exists i :: && 0 <= i < |d.orders| && !Filled(d.orders[i]) && d.orders[i].mode == Ask
                               && forall j :: i < j < |d.orders| ==> Filled(d.orders[j])
  {
    LastOrderIs(d.orders, false, Ask)
  }

  /** `entered`: the newest filled order is a BID. */
  function Entered(d: Desk): (r: bool)
    ensures r <==> exists i :: && 0 <= i < |d.orders| && Filled(d.orders[i]) && d.orders[i].mode == Bid
                               && forall j :: i < j < |d.orders| ==> !Filled(d.orders[j])
  {
    LastOrderIs(d.orders, true, Bid)
  }

  /** `exited`: the newest filled order is an ASK. */
  function Exited(d: Desk): (r: bool)
    ensures r <==> exists i :: && 0 <= i < |d.orders| && Filled(d.orders[i]) && d.orders[i].mode == Ask
                               && forall j :: i < j < |d.orders| ==> !Filled(d.orders[j])
  {
    LastOrderIs(d.orders, true, Ask)
  }

  /** A ledger is never both entered and exited, nor both entering and
      exiting; an empty ledger is none of the four. */
  lemma LifecycleExclusive(d: Desk)
    ensures !(Entered(d) && Exited(d))
    ensures !(Entering(d) && Exiting(d))
    ensures |d.orders| == 0 ==> !Entered(d) && !Exited(d) && !Entering(d) && !Exiting(d)
  {
  }

  /** A single unfilled BID means entering; once it fills, entered. */
  lemma LifecycleOfOneBid(d: Desk, o: Order)
    requires d.orders == [o] && o.mode == Bid
    ensures Entering(d) <==> !Filled(o)
    ensures Entered(d) <==> Filled(o)
    ensures !Exiting(d) && !Exited(d)
  {
    assert d.orders[0] == o;
  }

  /** `limit_exit` / `market_exit`: offer the whole stake balance. The
      source's `if total_volume:` is read as "present and non-zero". `None`
      means nothing was offered; `Err` is the position's `KeyError`. */
  function Exit(t: Tracker, d: Desk, kind: Kind, askPrice: Money, reply: Reply, freshId: Id)
    : (r: Result<Option<Placement>, Id>)
    requires DeskInvariant(d)
    ensures r.Err? <==> EphemeralPosition(d.orders).Err?
    ensures r.Ok? ==>
              var pos := EphemeralPosition(d.orders).value;
              && (r.value.Some? <==> t.stake in pos && pos[t.stake] != 0.0)
              && (r.value.Some? ==>
                    r.value.value == Place(d, kind, Ask, Money(pos[t.stake], t.stake), askPrice, reply, freshId))
  {
    match EphemeralPosition(d.orders)
    case Err(id) => Err(id)
    case Ok(pos) =>
      if t.stake in pos && pos[t.stake] != 0.0 then
        Ok(Some(Place(d, kind, Ask, Money(pos[t.stake], t.stake), askPrice, reply, freshId)))
      else Ok(None)
  }

  /** The exit ASK that `Exit` places sells the whole stake balance: once
      it is filled, the ledger holds no stake. */
  lemma FilledExitClearsStake(t: Tracker, d: Desk, kind: Kind, askPrice: Money, reply: Reply, freshId: Id, p: Placement)
    requires DeskInvariant(d)
    requires Exit(t, d, kind, askPrice, reply, freshId) == Ok(Some(p))
    requires p.outcome.Ok? && p.outcome.value.id !in IdSet(d.orders)
    requires askPrice.currency != t.stake
    ensures var o := p.outcome.value;
            var filled := d.orders + [o.(volumeFilled := o.volume)];
            var pos := EphemeralPosition(d.orders).value;
            && p.desk.orders == d.orders + [o]
            && EphemeralPosition(filled).Ok?
            && o.volume == Money(pos[t.stake], t.stake)
            && Get(EphemeralPosition(filled).value, t.stake) == 0.0
  {
    var pos := EphemeralPosition(d.orders).value;
    assert t.stake in pos;
    var ask := Money(pos[t.stake], t.stake);
    assert p == Place(d, kind, Ask, ask, askPrice, reply, freshId);
    var o := p.outcome.value;
    assert o.volume == ask && o.price == askPrice && o.mode == Ask;
    assert p.desk.orders == Store(d.orders, o) == d.orders + [o];
    var f := o.(volumeFilled := o.volume);
    var filled := d.orders + [f];
    assert filled[..|filled| - 1] == d.orders;
    FilledAskBooks(pos, f);
    assert EphemeralPosition(filled) == Apply(pos, f);
  }

  /** A filled ASK takes its volume off the stake and credits volume times
      price to the quote. */
  lemma FilledAskBooks(pos: Position, f: Order)
    requires f.mode == Ask && Filled(f) && f.volume.currency in pos && f.price.currency != f.volume.currency
    ensures Apply(pos, f).Ok?
    ensures Get(Apply(pos, f).value, f.volume.currency) == pos[f.volume.currency] - f.volume.amount
    ensures Get(Apply(pos, f).value, f.price.currency) == Get(pos, f.price.currency) + f.volume.amount * f.price.amount
  {
    var after := Apply(pos, f).value;
    assert Get(after, f.price.currency) == Get(pos, f.price.currency) + Contribution(f, f.price.currency);
  }
}

=== FILE: venue.dfy ===
/** The trading venue as seen from the strategies: what a placement call
    answers, and the calls a tick makes (recorded, never executed). */
module Venue {
  import opened Money

  /** The dictionary a placement returns: `NoReply` is the falsy answer a
      dry-run harness gives, `Replied` carries `success` and `order_id`. */
  datatype Reply = NoReply | Replied(success: bool, orderId: Id)

  /** A request sent to the venue. */
  datatype Call =
    | PlaceOrder(kind: Kind, mode: Mode, volume: Money, price: Money)
    | CancelOrder(id: Id)
    | CancelAllOpenOrders
}

=== FILE: wrappers.dfy ===
/** Optional values and error-carrying results, used wherever the trading code
    returns `None` or raises instead of producing a value. */
module Wrappers {

  datatype Option<+T> = None | Some(value: T)

  datatype Result<+T, +E> = Ok(value: T) | Err(error: E)
}
